=== FILE: README.md ===
# websocket-go in Dafny

A model of the core of `websocket-go`. The library is a small Socket.IO-style bridge
between WebSocket connections and Redis publish/subscribe. The model covers:

- **Outbound frames.** `Client.Emit` and `Client.To` publish the event envelope: the
  bytes `42` followed by `json.Marshal([]string{event, message})`. `Server.Broadcast`
  publishes the object `{"event":…,"payload":…}`. Each goes to the first room given,
  or else to the session id (`Emit`) or to `ServerBroadcast` (`Broadcast`). Admission
  writes the Engine.IO open frame and then `40`.
- **Inbound frames.** `readPump` handles each frame in one of three ways:
  - A frame `strconv.Atoi` accepts is a status packet, and the value 2 is answered with `3`.
  - Any other frame is searched with `\d+\["(.*)",(.*)\]`, using `regexp.FindSubmatch`'s
    leftmost-first, greedy semantics.
  - After a match, a quote-wrapped payload loses its first and last byte. The event
    name is then looked up in the session's handler map.
- **Handler registries.** `Client.On` checks only that the handler is a func; `Server.On`
  also checks that its first parameter is a `*Client`. Reserved
  names go to a typed setter; any other name is stored in the event map. `NewServer`
  seeds the server map with its three setters.
- **Session registry.** Admission (`NewClient`) and the disconnect branch of `run`
  keep a map from session id to session, each with its set of broker topics.

Modules, one per file:

| module | file | what it holds |
|---|---|---|
| `Wrappers` | wrappers.dfy | `Option`, `Result` |
| `Runtime` | runtime.dfy | Go types and func signatures as `reflect` sees them; the panics the code raises |
| `Json` | json.dfy | `json.Marshal` string escaping, and a reference decoder that inverts it |
| `Decimal` | decimal.dfy | `strconv.Atoi` on a 64-bit platform |
| `Pattern` | pattern.dfy | the inbound regular expression: what a match is, which one `FindSubmatch` picks, and a function computing it; the same with group 1 read as a JSON string body |
| `Wire` | wire.dfy | the frames the bridge writes |
| `Inbound` | inbound.dfy | frame classification and decoding, as written and corrected |
| `Registry` | registry.dfy | `Client.On`, `Server.On`, `NewServer` seeding |
| `Session` | session.dfy | `Emit`/`To`/`Join`/`Leave`, the per-frame reaction, the read loop |
| `Server` | server.dfy | admission, disconnect, broadcast and delivery, runs of connect/disconnect events |

Where the code as written panics, the model keeps two versions:

- an `…AsWritten` member that returns the panic as a `Result` failure;
- a corrected member, which the rest of the model builds on.

See "## Findings".

Where the library's documented design and its code disagree, the model follows the code:

- The broadcast topic is `ServerBroadcast`.
- `Broadcast` publishes a JSON object, not the `42[…]` envelope.
- There is no `BroadcastToServer` and no cross-process topic.
- Freeform server handlers are stored but never read by anything.
- The regular expression's group 2 includes the payload's quotes.

The pattern as written splits some frames in the wrong place. Group 1 is greedy, so it
runs to the last `",` on the line that still has a `]` after it on that line (`Pattern.LastSep`
searched up to the line's last `]`). A payload that starts with `,`, or that holds a `"`
followed by `,`, therefore lands partly in the event (`Inbound.LeadingCommaMisparsed`).
The decoder the model builds on (`Inbound.DecodeJson`) reads group 1 as a JSON string
body instead, so group 1 ends at the event's closing quote. Decoding never undoes JSON
escaping. Through the corrected decoder, a frame emitted for any event `e` and payload `p`
reaches the handler registered under `Escape(e)`, with payload `Escape(p)`. These differ
from `e` and `p` only for characters `json.Marshal` escapes: `"`, `\`, controls, `<`, `>`,
`&`, U+2028 and U+2029.

## Model

| member | source | states |
|---|---|---|
| Json.EscapeChar | client.go:43-44 | a character `json.Marshal` copies is copied alone; every other escape begins with a backslash, never holds a newline, and holds a quote only for the quote itself |
| Json.Escape | client.go:43-44 | the string body `json.Marshal` writes: no raw newline, no quote unless the input had one, unchanged for literal-only strings, never shorter; it starts with the first character when that one is copied, and with a backslash otherwise |
| Json.UnescapeEscape | client.go:43-44 | the escaping is invertible: the reference decoder gives back exactly the original string, so two event names never share an encoding |
| Decimal.Atoi | client.go:125 | `strconv.Atoi`: accepts exactly an optional sign followed by at least one ASCII digit whose signed value lies in the 64-bit range, and then yields that value |
| Decimal.Text | server.go:69 | the decimal text of a number: digits only, no leading zero, and its digit value is the number |
| Decimal.AtoiText | server.go:69 | `Atoi` reads every such text back as the number it was written for |
| Decimal.AtoiTwo | client.go:125-127 | `Atoi` yields 2 exactly for an optional `+`, any number of zeros, then `2` |
| Pattern.SelectedUnique | client.go:131 | at most one match is the leftmost-first, greedy choice |
| Pattern.MatchAt | client.go:124-131 | the preferred match starting at a given position is a match and outranks every other match there; none exists if it returns nothing |
| Pattern.FindFrom | client.go:124-131 | the preferred match starting at or after a position outranks every match from there on |
| Pattern.Find | client.go:124-131 | `FindSubmatch`: what it returns is the selected match, and it returns nothing exactly when the pattern matches nowhere |
| Pattern.FindWhole | client.go:124-131 | a match covering the whole frame, with no later `",` before its `]`, is the one `FindSubmatch` reports |
| Pattern.BodyEnd | client.go:124 | scanning a JSON string body finds a closing quote preceded by a valid body |
| Pattern.BodyEndFinds | client.go:124 | a valid body followed by a quote is exactly what the scan finds, so the corrected group 1 has one possible end |
| Pattern.EnvelopeAt | client.go:124-131 | with group 1 read as a JSON string body, the preferred match starting at a position outranks every other there; none exists if it returns nothing |
| Pattern.FindEnvelope | client.go:124-131 | the corrected search returns the selected corrected match, and nothing exactly when no corrected match exists |
| Pattern.FindEnvelopeAgrees | client.go:124-131 | the corrected search reports what `FindSubmatch` reports exactly when nothing matches or the reported group 1 is a JSON string body |
| Pattern.FindEnvelopeWhole | client.go:124-131 | a corrected match covering the whole frame is the one the corrected search reports, whatever the payload holds |
| Wire.OpenFrame | server.go:69 | the open frame is `0{"sid":"`, then the session id unescaped, then exactly `","upgrades":[],"pingInterval":30000,"pingTimeout":60000}` |
| Wire.OpenFrameTimings | server.go:69 | after the id the frame announces no upgrades and the two timings as decimal text, which `Atoi` reads back as 30000 and 60000 ms, the interval below the timeout |
| Wire.EventFrame | client.go:43-49 | the envelope starts with bytes 52 and 50 and contains no newline |
| Wire.EventFrameLiteral | client.go:43-49 | for literal-only strings the envelope is exactly `42["event","message"]` |
| Wire.BroadcastFrame | server.go:90-93 | the broadcast is a JSON object: opens with `{` and closes with `}` |
| Wire.BroadcastFrameLiteral | server.go:90-93 | for literal-only strings the broadcast is exactly `{"event":"…","payload":"…"}`, keys in sorted order |
| Wire.BroadcastIsNotEnvelope | server.go:90-93 | no broadcast object equals any event envelope |
| Inbound.Inner | client.go:134-143 | the bytes strictly between the first and the last, empty for a one-byte capture |
| Inbound.StripQuotesAsWritten | client.go:134 | the quote check indexes byte 0, so it panics with index out of range exactly on an empty capture |
| Inbound.StripQuotes | client.go:134-143 | a quote-wrapped capture loses exactly its first and last byte; any other capture, the empty one included, is passed on unchanged |
| Inbound.StripQuotesUnwraps | client.go:134-143 | stripping undoes wrapping in quotes whatever the inner text, in both versions |
| Inbound.DecodeAsWritten | client.go:124-143 | the decoder as written gives a status packet exactly when `Atoi` accepts the frame, carrying `Atoi`'s value; "no match" exactly when `Atoi` rejects it and the pattern matches nowhere; it panics with index out of range exactly when `Atoi` rejects it and the match the search selects has an empty group 2; any message it gives carries that match's group 1 as the event and its group 2, stripped of wrapping quotes, as the payload |
| Inbound.Decode | client.go:124-143 | with the empty capture checked: a status packet exactly when `Atoi` accepts the frame, with `Atoi`'s value; "no match" exactly when `Atoi` rejects it and the pattern matches nowhere; otherwise a message holding the selected match's group 1 and its quote-stripped group 2 |
| Inbound.DecodeJson | client.go:124-143 | the corrected decoder: a status packet exactly when `Atoi` accepts the frame, with `Atoi`'s value; "no match" exactly when `Atoi` rejects it and no corrected envelope (group 1 a JSON string body) occurs; otherwise a message holding the selected envelope's group 1 and its quote-stripped group 2 |
| Inbound.DecodeAgrees | client.go:124-143 | the decoder as written fails exactly when a match has an empty payload capture, and otherwise agrees with the checked decoder |
| Inbound.StatusFrames | client.go:125-130 | for both decoders, a frame is a status packet exactly when `Atoi` accepts it, and the packet 2 exactly for an optional `+`, zeros, then `2` |
| Inbound.DecodeJsonAgrees | client.go:124-143 | the corrected decoder gives a different result exactly on the frames `Atoi` rejects where the reported group 1 is not a JSON string body |
| Inbound.EscapeIsBody | client.go:43-44 | every string body `json.Marshal` writes is a JSON string body |
| Inbound.DecodeFound | client.go:131-143 | after a failed `Atoi` and a successful search, the decoded event is group 1 and the payload is group 2 stripped of wrapping quotes |
| Inbound.EnvelopeRoundTrip | client.go:124-143 | through the pattern as written, decoding an `Emit` frame gives the escaped event and escaped payload if the payload has no quote and does not start with a comma; the decoder as written agrees |
| Inbound.EnvelopeRoundTripJson | client.go:124-143 | through the corrected decoder, decoding an `Emit` frame gives the escaped event and the escaped payload, for every event and payload |
| Inbound.EnvelopeRoundTripLiteral | client.go:124-143 | for literal-only event and payload, the corrected decoder gives back exactly the pair from the `Emit` frame, empty strings and a leading comma included |
| Inbound.EmptyPayloadPanics | client.go:134 | `1["e",]` makes the decoder as written panic, while the checked decoder reads event `e` with an empty payload |
| Inbound.LeadingCommaMisparsed | client.go:124-133 | through the pattern as written, the `Emit` frame for event `msg` and payload `,hi` decodes as event `msg",` with payload `hi"` |
| Inbound.LeadingCommaFixed | client.go:124-133 | the corrected decoder reads the same frame as event `msg` with payload `,hi` |
| Registry.ClientOn | client.go:77-91 | a non-func fails; `onDisconnect` and `onError` install a handler of the setter's type, fail on any other type, and leave the event map alone; `""` stays reserved and fails; any other name overwrites only its own map entry |
| Registry.ClientOnAsWritten | client.go:77-91 | the code as written: a non-func fails; over a map with no reserved keys every reserved name fails; a freeform name overwrites its entry; reserved keys never get in |
| Registry.NilClientOnPanics | client.go:83-90 | on the nil map an admitted session has, every registration panics: a reserved name calls a zero `reflect.Value`, any other name writes a nil map |
| Registry.ReservedAlwaysPanics | client.go:83-88 | after any sequence of successful registrations, a reserved name still panics, so the code as written can never set a client default handler |
| Registry.ClientOnFreeformAgrees | client.go:90 | for freeform names the corrected registry and the code as written give the same event map |
| Registry.SlotName | server.go:51-53 | each setter is seeded under one of the three reserved names |
| Registry.Install | server.go:131-143 | a setter replaces only its own default handler and leaves the event map and the other handlers alone |
| Registry.NewServerRegistry | server.go:48-53 | the map holds exactly the three reserved names, each bound to its own setter, and no default handler is set |
| Registry.ServerOn | server.go:109-128 | a non-func fails, then a handler without a first parameter named `Client` fails, before any routing; reserved names leave the map alone; any other valid name overwrites only its own entry |
| Registry.ServerOnKeepsSeeded | server.go:119-127 | registration never disturbs the three seeded setters |
| Registry.ServerOnReserved | server.go:119-143 | on a seeded map, a reserved name installs the handler exactly when its type is the setter's and panics otherwise |
| Registry.SlotSignaturesHaveShape | server.go:115-143 | every setter's own type passes the shape check, so each default handler can be installed |
| Session.PingPeriod | client.go:21 | nine tenths of the pong wait, rounded down, and below it for any positive wait |
| Session.PingBeforePongDeadline | client.go:17-21 | the ping period is 54 s, positive and less than the 60 s pong wait |
| Session.Open | server.go:60-62 | a new session is subscribed to exactly its own id and `ServerBroadcast`, and its registry is the empty one: no event handlers, no onDisconnect, no onError |
| Session.Emit | client.go:42-58 | publishes the event envelope to the first room given, or else to the session's id |
| Session.To | client.go:72-74 | publishes the envelope to the named room |
| Session.ToIsEmit | client.go:72-74 | `To` is `Emit` with the room, and rooms after the first make no difference |
| Session.EmitTopic | client.go:51-54 | an `Emit` goes only to the session's own id or to a room it was given |
| Session.Join | client.go:62-64 | the room is added to the topics and nothing else changes |
| Session.Leave | client.go:67-69 | the room is removed from the topics and nothing else changes |
| Session.JoinLeaveIdempotent | client.go:62-69 | joining or leaving twice is the same as doing it once |
| Session.LeaveUndoesJoin | client.go:62-69 | leaving a room joined fresh restores the session; joining a room already held changes nothing |
| Session.React | client.go:124-147 | a reply is sent exactly for the frames `Atoi` reads as 2, and it is `3`; no status frame dispatches; a handler is started exactly when the event the corrected decoder reads is registered, with that event's handler and the decoded payload |
| Session.ReactAsWritten | client.go:124-147 | fails exactly when the decoder as written panics; on the nil map a session is admitted with, it never starts a handler |
| Session.ReactAgrees | client.go:124-147 | once the map exists, the code as written reacts as the model does to every frame it does not crash on whose reported group 1 is a JSON string body |
| Session.EmitReact | client.go:145-147 | through the corrected decoder, any emitted frame reaches the receiver's handler for the escaped event name with the escaped payload, and is dropped when no such handler exists |
| Session.EmitReactLiteral | client.go:145-147 | for literal-only names and payloads, a leading comma included, the handler registered under the name receives exactly the payload |
| Session.FirstBroken | client.go:117-121 | the position of the first read error: every earlier read delivered a frame |
| Session.Pump | client.go:116-150 | the k-th action answers the k-th frame for every frame before the first read error; after them comes one report to the error handler when one is set, and nothing else |
| Session.PumpSplits | client.go:116-150 | frames before the first read error are handled one by one, in order, each independently of what follows |
| Session.ReadPump | client.go:116-150 | the loop's k-th action answers the k-th frame up to the first read error, then at most one report to the error handler, and nothing more; this is the reference trace |
| Session.PumpAsWritten | client.go:116-122 | the loop as written finishes without panicking only if no read error occurs |
| Session.NilMapNeverInvokes | client.go:116-147 | on the nil map the loop as written never starts a handler: each frame it gets through is answered by a pong or ignored |
| Session.ReadErrorPanics | client.go:117-121 | any read error panics in the loop as written, whatever came before or after |
| Session.PumpAgrees | client.go:116-150 | without read errors, empty captures or a reported group 1 that is not a JSON string body, the loop as written and the corrected loop agree exactly |
| Server.NewServer | server.go:42-56 | no sessions, nothing logged, and the registry seeded with the three setters |
| Server.On | server.go:109-128 | succeeds exactly when the registry does, and leaves the sessions and the log alone |
| Server.Subscribers | client.go:164-170 | the sessions a publish is written to are exactly the stored sessions subscribed to its topic |
| Server.Admit | server.go:59-74 | stores the freshly opened session for the id (`Session.Open`): subscribed to exactly its id and `ServerBroadcast`, with the empty registry; every other session is untouched; appends the open frame, then `40`, then the call of the server's registered onConnect handler for this id; the returned error changes nothing |
| Server.AdmitAsWritten | server.go:71 | panics with a nil func call exactly when onConnect was never registered, and otherwise is the model's admission |
| Server.Disconnect | server.go:151-155 | a stored id gets one onDisconnect record with reason `disconnect` and is removed, every other session untouched; an absent id changes nothing |
| Server.DisconnectAsWritten | server.go:151-155 | panics exactly when a stored session is disconnected with no onDisconnect registered |
| Server.DisconnectIdempotent | server.go:151-155 | a second disconnect signal for the same id changes nothing |
| Server.AdmitThenDisconnect | server.go:146-158 | disconnecting a freshly admitted id restores the session map |
| Server.UnregisteredDefaultsPanic | server.go:49 | as written, the first admission on a new server panics, and so does every disconnect until onDisconnect is registered |
| Server.RegisteredAgrees | server.go:71 | with both handlers registered, admission and disconnect as written coincide with the model |
| Server.Subscribe | client.go:62-69 | after `Join` the session is a subscriber of the room and after `Leave` it is not; other sessions and the log are untouched |
| Server.Publish | client.go:55 | logs one publish whose recipients are exactly the subscribers of its topic |
| Server.Broadcast | server.go:89-106 | publishes the broadcast object to the first room given or else `ServerBroadcast`, reaching exactly that topic's subscribers |
| Server.BroadcastReaches | server.go:98-103 | a default broadcast reaches every session still subscribed to `ServerBroadcast` |
| Server.AdmittedListens | server.go:61 | a freshly admitted session hears its own id and `ServerBroadcast` |
| Server.RoomIsolation | client.go:51-55 | a session outside a room receives neither what is emitted to it nor what is broadcast to it |
| Server.BroadcastIsNotEnvelope | server.go:90-93 | what a broadcast publishes is never the event envelope of the same pair |
| Server.StepBalanced | server.go:146-158 | admitting a new id or handling a disconnect signal keeps every id admitted at most once, with disconnects plus presence equal to admissions |
| Server.RunBalanced | server.go:146-158 | any run that admits only new ids keeps that balance |
| Server.ExactlyOnce | server.go:151-155 | from a server with no sessions and an empty log, whatever handlers are registered, with only new ids admitted: a stored session has had no onDisconnect call, an admitted session that is gone has had exactly one, duplicate signals included, and every such call is of the registered onDisconnect |

## Left out

- Sockets, the upgrader and `CheckOrigin`, read limits, read and write deadlines, the
  ping ticker and close frames. These are network and timer plumbing. The write
  deadline and the read size limit are therefore not modelled at all.
- Goroutines, channels and the mutex. `writePump` and `readPump` run concurrently, and
  `writePump` starts before admission writes its two frames. The model puts each
  operation's effects in program order and does not model interleavings.
- `writePump` is modelled only as delivery: a publish is written to each subscribed
  session (`Server.Subscribers`). Pings and the close on a closed channel are left out.
- Redis internals and other processes. The broker is the topic sets of this server's
  sessions plus a publish log.
- `uuid.New()`. The id is a parameter. Freshness of an admitted id is a precondition of
  `Server.StepBalanced`, `Server.RunBalanced` and `Server.ExactlyOnce`.
- Reflection. Handlers are a datatype with a func signature. Calling a handler is
  recorded as an action, not performed. A handler whose type does not take one string
  panics when it is started; that panic is not modelled.
- The errors `json.Marshal` and Redis `Publish` can return, and the `onError` calls they
  lead to. `json.Marshal` of strings cannot fail. Publish failures are broker I/O.
- zerolog logging and `ServeHTTP`.
- Invalid UTF-8. Strings are sequences of Unicode scalar values, so `json.Marshal`'s
  replacement of invalid bytes by U+FFFD is not modelled.
- `example/gin/main.go`. It is routing glue, and it calls functions the library does
  not have.
- Json.Escape: states Go 1.22 and later, which writes `\b` and `\f` as short escapes
  where earlier versions write `\u0008` and `\u000c`.
- Registry.ServerOn: when a reserved name's entry is a stored handler rather than a
  setter, the handler is called and the registry is left unchanged. The call's own
  effect is not modelled. No seeded registry reaches this case (`Registry.ServerOnKeepsSeeded`).
- Session.ReadPump: the loop ends at the first read error. Closing the socket and the
  subscription and signalling the server are in `Server.Disconnect`.

## Findings

| source | as written | input that shows it | evidently intended | confidence | as-written member | corrected member |
|---|---|---|---|---|---|---|
| client.go:83-90 | `NewClient` (server.go:62) never creates `events`, and no client setter is ever put in it. So `Client.On` writes a nil map for freeform names and calls a zero `reflect.Value` for `onDisconnect`, `onError` and `""` | `c.On("chat", f)` on any admitted session; `c.On("onError", g)` even after the map exists | freeform names are stored; `onDisconnect` and `onError` install the session's default handlers | high (not executed) | Registry.ReservedAlwaysPanics | Registry.ClientOn |
| client.go:117-121 | the session's `handler` pointer is never set, so the read-error branch dereferences nil | any connection that closes, since `ReadMessage` then returns an error | report the error to the handler, if one is set, and end the loop | high (not executed) | Session.ReadErrorPanics | Session.ReadPump |
| server.go:49 | `NewServer` leaves the three default handlers as nil funcs. Admission (server.go:71) and disconnect (server.go:153) call them unconditionally | one connection to a server on which `On("onConnect", …)` was never called | an unregistered default handler does nothing | high (not executed) | Server.UnregisteredDefaultsPanic | Server.Admit |
| client.go:124 | group 1 of `\d+\["(.*)",(.*)\]` is greedy, so it ends at the last `",` on the line that still has a `]` after it on that line, not at the event's closing quote | the `Emit` frame for event `msg` and payload `,hi`, `42["msg",",hi"]`, read as event `msg",` and payload `hi"` | the event and the payload are the two strings of the array, as `Inbound.EnvelopeRoundTripJson` proves of the corrected decoder | high (not executed) | Inbound.LeadingCommaMisparsed | Inbound.DecodeJson |
| client.go:134 | the quote check reads `payload[0]` before checking the capture's length | the frame `1["e",]` | an empty payload is passed on as empty | high (not executed) | Inbound.EmptyPayloadPanics | Inbound.StripQuotes |

=== FILE: decimal.dfy ===
/**
 `strconv.Atoi` on a 64-bit platform: an optional sign followed by at least one
 ASCII digit, whose value fits in `int`.
 */
module Decimal {
  import opened Wrappers

  const MaxInt: int := 0x7FFF_FFFF_FFFF_FFFF
  const MinInt: int := -0x8000_0000_0000_0000

  predicate IsDigit(c: char) {
    '0' <= c <= '9'
  }

  function DigitValue(c: char): nat
    requires IsDigit(c)
  {
    c as int - '0' as int
  }

  predicate AllDigits(s: string) {
    forall i :: 0 <= i < |s| ==> IsDigit(s[i])
  }

  /** Value of a run of digits, most significant first. */
  function Value(s: string): nat
    requires AllDigits(s)
  {
    if s == [] then 0 else Value(s[..|s| - 1]) * 10 + DigitValue(s[|s| - 1])
  }

  predicate HasSign(s: string) {
    |s| > 0 && (s[0] == '+' || s[0] == '-')
  }

  /** The text after the optional sign. */
  function Magnitude(s: string): string {
    if HasSign(s) then s[1..] else s
  }

  /** The value a signed digit string denotes, the sign applied to its magnitude. */
  function Signed(s: string): int
    requires AllDigits(Magnitude(s))
  {
    var v: int := Value(Magnitude(s));
    if HasSign(s) && s[0] == '-' then -v else v
  }

  /** `strconv.Atoi(s)`; `None` stands for a non-nil error (syntax or range). */
  function Atoi(s: string): (r: Option<int>)
    ensures r.Some? <==> |Magnitude(s)| > 0 && AllDigits(Magnitude(s)) && MinInt <= Signed(s) <= MaxInt
    ensures r.Some? ==> r.value == Signed(s)
    ensures r.Some? && r.value < 0 ==> s[0] == '-'
  {
    var digits := Magnitude(s);
    if |digits| == 0 || !AllDigits(digits) then None
    else
      var n: int := if s[0] == '-' then 0 - (Value(digits) as int) else Value(digits);
      if MinInt <= n <= MaxInt then Some(n) else None
  }

  /** The decimal text of `n`: digits only, no leading zero. */
  function Text(n: nat): (r: string)
    ensures |r| > 0 && AllDigits(r)
    ensures r[0] == '0' ==> n == 0
    ensures Value(r) == n
  {
    var d := ['0' + (n % 10) as char];
    if n < 10 then d
    else
      var r := Text(n / 10) + d;
      assert r[..|r| - 1] == Text(n / 10);
      r
  }

  /** Appending a digit to a positive number's text. */
  lemma TextDigit(n: nat, d: nat)
    requires n > 0 && d < 10
    ensures Text(n * 10 + d) == Text(n) + ['0' + d as char]
  {
    assert (n * 10 + d) / 10 == n && (n * 10 + d) % 10 == d;
  }

  /** `Atoi` reads back every text `Text` writes, within the 64-bit range. */
  lemma AtoiText(n: nat)
    requires n <= MaxInt
    ensures Atoi(Text(n)) == Some(n)
  {
    assert !HasSign(Text(n));
  }

  /** Digits all '0' except a final '2'. */
  predicate ZerosThenTwo(t: string) {
    |t| > 0 && t[|t| - 1] == '2' && forall i :: 0 <= i < |t| - 1 ==> t[i] == '0'
  }

  /** The texts Atoi reads as 2: an optional '+', any number of '0's, then '2'. */
  predicate IsTwo(s: string) {
    ZerosThenTwo(s) || (|s| > 0 && s[0] == '+' && ZerosThenTwo(s[1..]))
  }

  lemma {:induction false} ValueZero(t: string)
    requires AllDigits(t)
    ensures Value(t) == 0 <==> forall i :: 0 <= i < |t| ==> t[i] == '0'
  {
    if t != [] {
      var init := t[..|t| - 1];
      ValueZero(init);
      assert forall i :: 0 <= i < |init| ==> init[i] == t[i];
    }
  }

  lemma ValueTwo(t: string)
    requires AllDigits(t)
    ensures Value(t) == 2 <==> ZerosThenTwo(t)
  {
    if t != [] {
      var init := t[..|t| - 1];
      ValueZero(init);
      assert forall i :: 0 <= i < |init| ==> init[i] == t[i];
    }
  }

  /** Exactly the texts of the form `+?0*2` parse to 2. */
  lemma AtoiTwo(s: string)
    ensures Atoi(s) == Some(2) <==> IsTwo(s)
  {
    var digits := Magnitude(s);
    if IsTwo(s) {
      assert digits == (if ZerosThenTwo(s) then s else s[1..]);
      assert AllDigits(digits);
      ValueTwo(digits);
    }
    if Atoi(s) == Some(2) {
      ValueTwo(digits);
    }
  }
}

=== FILE: inbound.dfy ===
/**
 The frame decoder at the heart of `readPump`: a frame `strconv.Atoi` accepts is a
 status packet; otherwise the envelope pattern extracts an event name and a payload,
 and a payload wrapped in double quotes loses them.
 */
module Inbound {
  import opened Wrappers
  import opened Runtime
  import Decimal
  import Pattern
  import Json
  import Wire

  /** What one inbound frame is, before the handler lookup. */
  datatype Packet = Status(value: int) | Message(event: string, payload: string) | Unmatched

  /** First and last character are both `"` (for a lone `"`, the same character). */
  predicate Wrapped(p: string) {
    |p| > 0 && p[0] == '"' && p[|p| - 1] == '"'
  }

  /** What the copy loop keeps: every byte but the first and the last. */
  function Inner(p: string): (r: string)
    requires |p| > 0
    ensures |p| >= 2 ==> p == [p[0]] + r + [p[|p| - 1]]
    ensures |p| == 1 ==> r == []
  {
    if |p| == 1 then [] else p[1..|p| - 1]
  }

  /** The quote stripping as written: `payload[0]` is read before anything checks
      that the capture is non-empty. */
  function StripQuotesAsWritten(p: string): (r: Result<string, Panic>)
    ensures r.Failure? <==> p == []
    ensures r.Failure? ==> r.error == IndexOutOfRange
  {
    if |p| == 0 then Failure(IndexOutOfRange)
    else if Wrapped(p) then Success(Inner(p))
    else Success(p)
  }

  /** The quote stripping with the length checked first: an empty capture passes
      through like any other unwrapped one. */
  function StripQuotes(p: string): (r: string)
    ensures !Wrapped(p) ==> r == p
    ensures Wrapped(p) && |p| >= 2 ==> p == "\"" + r + "\""
    ensures Wrapped(p) && |p| == 1 ==> r == []
  {
    if Wrapped(p) then Inner(p) else p
  }

  /** The body of `readPump`'s loop, as written, up to the handler lookup. */
  function DecodeAsWritten(frame: string): (r: Result<Packet, Panic>)
    ensures r.Success? && r.value.Status? <==> Decimal.Atoi(frame).Some?
    ensures r.Success? && r.value.Status? ==> Decimal.Atoi(frame) == Some(r.value.value)
    ensures r.Success? && r.value.Unmatched? <==>
              Decimal.Atoi(frame).None? && forall n :: !Pattern.IsMatch(frame, n)
    ensures r.Success? && r.value.Message? ==>
              exists m :: Pattern.IsSelected(frame, m) && Pattern.Group2(frame, m) != []
                && r.value.event == Pattern.Group1(frame, m)
                && r.value.payload == StripQuotes(Pattern.Group2(frame, m))
    ensures r.Failure? <==>
              Decimal.Atoi(frame).None?
              && exists m :: Pattern.IsSelected(frame, m) && Pattern.Group2(frame, m) == []
    ensures r.Failure? ==> r.error == IndexOutOfRange
  {
    match Decimal.Atoi(frame)
    case Some(n) => Success(Status(n))
    case None =>
      Pattern.FindSelectsOnly(frame);
      match Pattern.Find(frame)
      case None => Success(Unmatched)
      case Some(m) =>
        var stripped := StripQuotesAsWritten(Pattern.Group2(frame, m));
        if stripped.Failure? then Failure(stripped.error)
        else
          assert stripped.value == StripQuotes(Pattern.Group2(frame, m));
          Success(Message(Pattern.Group1(frame, m), stripped.value))
  }

  /** The decoder with the empty-capture check in place, the pattern still as written. */
  function Decode(frame: string): (r: Packet)
    ensures r.Status? <==> Decimal.Atoi(frame).Some?
    ensures r.Status? ==> Decimal.Atoi(frame) == Some(r.value)
    ensures r.Unmatched? <==> Decimal.Atoi(frame).None? && forall n :: !Pattern.IsMatch(frame, n)
    ensures r.Message? ==>
              exists m :: Pattern.IsSelected(frame, m)
                && r.event == Pattern.Group1(frame, m)
                && r.payload == StripQuotes(Pattern.Group2(frame, m))
  {
    match Decimal.Atoi(frame)
    case Some(n) => Status(n)
    case None =>
      match Pattern.Find(frame)
      case None => Unmatched
      case Some(m) => Message(Pattern.Group1(frame, m), StripQuotes(Pattern.Group2(frame, m)))
  }

  /** The decoder with both corrections: the empty capture checked, and group 1 read
      as a JSON string body, so that it ends at the event's closing quote and not at
      the last `",` on the line. The rest of the model uses it. */
  function DecodeJson(frame: string): (r: Packet)
    ensures r.Status? <==> Decimal.Atoi(frame).Some?
    ensures r.Status? ==> Decimal.Atoi(frame) == Some(r.value)
    ensures r.Unmatched? <==> Decimal.Atoi(frame).None? && forall n :: !Pattern.IsEnvelope(frame, n)
    ensures r.Message? ==>
              exists m :: Pattern.IsSelectedEnvelope(frame, m)
                && r.event == Pattern.Group1(frame, m)
                && r.payload == StripQuotes(Pattern.Group2(frame, m))
  {
    match Decimal.Atoi(frame)
    case Some(n) => Status(n)
    case None =>
      match Pattern.FindEnvelope(frame)
      case None => Unmatched
      case Some(m) => Message(Pattern.Group1(frame, m), StripQuotes(Pattern.Group2(frame, m)))
  }

  /** Nothing matches the pattern as written, or the group 1 it reports is a JSON
      string body. */
  ghost predicate GreedyIsJson(frame: string) {
    Pattern.Find(frame).None? || Pattern.JsonBody(Pattern.Group1(frame, Pattern.Find(frame).value))
  }

  /** Reading group 1 as a JSON string body changes the outcome exactly on the frames
      where the pattern as written reports a group 1 that is not one. */
  lemma DecodeJsonAgrees(frame: string)
    ensures DecodeJson(frame) == Decode(frame) <==> Decimal.Atoi(frame).Some? || GreedyIsJson(frame)
  {
    Pattern.FindEnvelopeAgrees(frame);
  }

  /** Stripping undoes wrapping in quotes, whatever the wrapped text holds. */
  lemma StripQuotesUnwraps(x: string)
    ensures StripQuotes("\"" + x + "\"") == x
    ensures StripQuotesAsWritten("\"" + x + "\"") == Success(x)
  {
    var p := "\"" + x + "\"";
    assert Wrapped(p);
    assert p[1..|p| - 1] == x;
  }

  /** The two decoders differ only where the one as written panics, and it panics
      exactly on a matched frame whose payload capture is empty. */
  lemma DecodeAgrees(frame: string)
    ensures DecodeAsWritten(frame).Success? ==> DecodeAsWritten(frame).value == Decode(frame)
    ensures DecodeAsWritten(frame).Failure? <==>
              Decimal.Atoi(frame).None? && Pattern.Find(frame).Some?
              && Pattern.Group2(frame, Pattern.Find(frame).value) == []
  {
  }

  /** A frame is a status packet exactly when `Atoi` accepts it, and status 2 exactly
      when it reads `+?0*2`. */
  lemma StatusFrames(frame: string)
    ensures Decode(frame).Status? <==> Decimal.Atoi(frame).Some?
    ensures Decode(frame) == Status(2) <==> Decimal.IsTwo(frame)
    ensures DecodeJson(frame).Status? <==> Decimal.Atoi(frame).Some?
    ensures DecodeJson(frame) == Status(2) <==> Decimal.IsTwo(frame)
  {
    Decimal.AtoiTwo(frame);
  }

  lemma ArrayLayout(e: string, p: string)
    ensures Json.Array2(e, p) == "[" + ("\"" + Json.Escape(e) + "\"") + "," + ("\"" + Json.Escape(p) + "\"") + "]"
  {
  }

  lemma Regroup(E: string, P: string, x: string)
    requires x == "[" + ("\"" + E + "\"") + "," + ("\"" + P + "\"") + "]"
    ensures "42" + x == "42[\"" + E + "\",\"" + P + "\"]"
  {
  }

  /** The envelope `Emit` writes, laid out character by character. */
  lemma EventFrameLayout(e: string, p: string)
    ensures Wire.EventFrame(e, p) == "42[\"" + Json.Escape(e) + "\",\"" + Json.Escape(p) + "\"]"
  {
    ArrayLayout(e, p);
    Regroup(Json.Escape(e), Json.Escape(p), Json.Array2(e, p));
  }

  /** Where the pieces of a five-part concatenation sit. */
  lemma Pieces(f: string, a: string, x: string, b: string, y: string, c: string)
    requires f == a + x + b + y + c
    ensures |f| == |a| + |x| + |b| + |y| + |c|
    ensures forall j :: 0 <= j < |x| ==> f[|a| + j] == x[j]
    ensures forall j :: 0 <= j < |y| ==> f[|a| + |x| + |b| + j] == y[j]
    ensures f[..|a|] == a
    ensures f[|a| + |x|..|a| + |x| + |b|] == b
    ensures f[|a| + |x| + |b| + |y|..] == c
    ensures f[|a|..|a| + |x|] == x
  {
  }

  /** `Atoi` rejects any frame with a `[` at index 2. */
  lemma AtoiRejectsEnvelope(f: string, rest: string)
    requires f == "42[" + rest
    ensures Decimal.Atoi(f) == None
  {
    assert f[0] == '4' && f[2] == '[';
    assert !Decimal.IsDigit(f[2]);
  }

  lemma EnvelopeMatches(f: string, E: string, P: string)
    requires f == "42[\"" + E + "\",\"" + P + "\"]"
    requires '\n' !in E && '\n' !in P
    ensures Pattern.IsMatch(f, Pattern.Span(0, 2, 4 + |E|, 8 + |E| + |P|))
  {
    Pieces(f, "42[\"", E, "\",\"", P, "\"]");
  }

  lemma EnvelopeLastSep(f: string, E: string, P: string)
    requires f == "42[\"" + E + "\",\"" + P + "\"]"
    requires '"' !in P
    requires P == [] || P[0] != ','
    ensures forall j :: 4 + |E| < j && j + 2 <= 8 + |E| + |P| ==> !(f[j] == '"' && f[j + 1] == ',')
  {
    Pieces(f, "42[\"", E, "\",\"", P, "\"]");
    assert f[7 + |E|] == (if P == [] then '"' else P[0]);
  }

  /** In `42["E","P"]` the pattern selects `E` as group 1 and `"P"` as group 2 when `E`
      and `P` hold no newline, `P` holds no `"` and does not begin with `,`. */
  lemma FindInEnvelope(f: string, E: string, P: string)
    requires f == "42[\"" + E + "\",\"" + P + "\"]"
    requires '\n' !in E && '\n' !in P && '"' !in P
    requires P == [] || P[0] != ','
    ensures Pattern.Find(f) == Some(Pattern.Span(0, 2, 4 + |E|, 8 + |E| + |P|))
  {
    EnvelopeMatches(f, E, P);
    EnvelopeLastSep(f, E, P);
    Pattern.FindWhole(f, Pattern.Span(0, 2, 4 + |E|, 8 + |E| + |P|));
  }

  lemma Middle(f: string, a: string, x: string, c: string)
    requires f == a + x + c
    ensures f[|a|..|a| + |x|] == x
  {
  }

  lemma EnvelopeGroups(f: string, E: string, P: string)
    requires f == "42[\"" + E + "\",\"" + P + "\"]"
    requires Pattern.IsMatch(f, Pattern.Span(0, 2, 4 + |E|, 8 + |E| + |P|))
    ensures Pattern.Group1(f, Pattern.Span(0, 2, 4 + |E|, 8 + |E| + |P|)) == E
    ensures Pattern.Group2(f, Pattern.Span(0, 2, 4 + |E|, 8 + |E| + |P|)) == "\"" + P + "\""
  {
    Middle(f, "42[\"", E, "\",\"" + P + "\"]");
    Middle(f, "42[\"" + E + "\",", "\"" + P + "\"", "]");
  }

  /** What the decoder sees in `42["E","P"]`. */
  lemma EnvelopeFacts(f: string, E: string, P: string)
    requires f == "42[\"" + E + "\",\"" + P + "\"]"
    requires '\n' !in E && '\n' !in P && '"' !in P
    requires P == [] || P[0] != ','
    ensures Decimal.Atoi(f) == None
    ensures Pattern.Find(f) == Some(Pattern.Span(0, 2, 4 + |E|, 8 + |E| + |P|))
    ensures Pattern.IsMatch(f, Pattern.Span(0, 2, 4 + |E|, 8 + |E| + |P|))
    ensures Pattern.Group1(f, Pattern.Span(0, 2, 4 + |E|, 8 + |E| + |P|)) == E
    ensures Pattern.Group2(f, Pattern.Span(0, 2, 4 + |E|, 8 + |E| + |P|)) == "\"" + P + "\""
  {
    AtoiRejectsEnvelope(f, "\"" + E + "\",\"" + P + "\"]");
    FindInEnvelope(f, E, P);
    EnvelopeMatches(f, E, P);
    EnvelopeGroups(f, E, P);
  }

  /** How the decoders read a frame `Atoi` rejects and the pattern matches. */
  lemma DecodeFound(f: string, m: Pattern.Span)
    requires Decimal.Atoi(f) == None && Pattern.Find(f) == Some(m)
    ensures Pattern.IsMatch(f, m)
    ensures Decode(f) == Message(Pattern.Group1(f, m), StripQuotes(Pattern.Group2(f, m)))
    ensures StripQuotesAsWritten(Pattern.Group2(f, m)).Success? ==>
              DecodeAsWritten(f) == Success(Message(Pattern.Group1(f, m), StripQuotesAsWritten(Pattern.Group2(f, m)).value))
  {
  }

  lemma DecodeEnvelope(f: string, E: string, P: string)
    requires f == "42[\"" + E + "\",\"" + P + "\"]"
    requires '\n' !in E && '\n' !in P && '"' !in P
    requires P == [] || P[0] != ','
    ensures Decode(f) == Message(E, P)
    ensures DecodeAsWritten(f) == Success(Message(E, P))
  {
    EnvelopeFacts(f, E, P);
    DecodeFound(f, Pattern.Span(0, 2, 4 + |E|, 8 + |E| + |P|));
    StripQuotesUnwraps(P);
  }

  /** Envelope round trip through the pattern as written: the decoder recovers the
      event and the payload of an `Emit` frame in their JSON-escaped form (it never
      unescapes), provided the payload has no `"` and does not begin with `,`; for
      every other payload the greedy group 1 can reach into the payload. */
  lemma EnvelopeRoundTrip(e: string, p: string)
    requires '"' !in p
    requires p == [] || p[0] != ','
    ensures Decode(Wire.EventFrame(e, p)) == Message(Json.Escape(e), Json.Escape(p))
    ensures DecodeAsWritten(Wire.EventFrame(e, p)) == Success(Message(Json.Escape(e), Json.Escape(p)))
  {
    EventFrameLayout(e, p);
    DecodeEnvelope(Wire.EventFrame(e, p), Json.Escape(e), Json.Escape(p));
  }

  /** A run of characters none of which is `"`, `\` or a newline extends a JSON
      string body. */
  lemma {:induction false} PlainIsBody(u: string, t: string)
    requires forall j :: 0 <= j < |u| ==> u[j] != '"' && u[j] != '\\' && u[j] != '\n'
    requires Pattern.JsonBody(t)
    ensures Pattern.JsonBody(u + t)
    decreases |u|
  {
    if u != [] {
      assert forall j :: 0 <= j < |u[1..]| ==> u[1..][j] == u[j + 1];
      PlainIsBody(u[1..], t);
      assert (u + t)[0] == u[0] && (u + t)[1..] == u[1..] + t;
    } else {
      assert u + t == t;
    }
  }

  lemma PairIsBody(d: char, t: string)
    requires d != '\n' && Pattern.JsonBody(t)
    ensures Pattern.JsonBody(['\\', d] + t)
  {
    var x := ['\\', d] + t;
    assert x[0] == '\\' && x[1] == d && x[2..] == t;
  }

  lemma UnicodeIsBody(q: string, t: string)
    requires |q| == 4 && forall i :: 0 <= i < 4 ==> q[i] in Json.HexDigits
    requires Pattern.JsonBody(t)
    ensures Pattern.JsonBody("\\u" + q + t)
  {
    PlainIsBody(q, t);
    PairIsBody('u', q + t);
    assert "\\u" + q + t == ['\\', 'u'] + (q + t);
  }

  lemma EscapeCharIsBody(c: char, t: string)
    requires Pattern.JsonBody(t)
    ensures Pattern.JsonBody(Json.EscapeChar(c) + t)
  {
    if Json.IsLiteral(c) {
      var x := [c] + t;
      assert x[0] == c && x[1..] == t;
    } else if c == '"' || c == '\\' {
      PairIsBody(c, t);
    } else if c == '\U{8}' {
      PairIsBody('b', t);
    } else if c == '\U{C}' {
      PairIsBody('f', t);
    } else if c == '\n' {
      PairIsBody('n', t);
    } else if c == '\r' {
      PairIsBody('r', t);
    } else if c == '\t' {
      PairIsBody('t', t);
    } else {
      UnicodeIsBody(Json.HexQuad(c as int), t);
    }
  }

  /** Every string body `json.Marshal` writes is a JSON string body. */
  lemma {:induction false} EscapeIsBody(e: string)
    ensures Pattern.JsonBody(Json.Escape(e))
  {
    if e != [] {
      EscapeIsBody(e[1..]);
      EscapeCharIsBody(e[0], Json.Escape(e[1..]));
    }
  }

  /** In `42["E","P"]` with `E` a JSON string body the corrected search selects `E` as
      group 1, whatever `P` holds. */
  lemma FindEnvelopeIn(f: string, E: string, P: string)
    requires f == "42[\"" + E + "\",\"" + P + "\"]"
    requires '\n' !in E && '\n' !in P && Pattern.JsonBody(E)
    ensures Pattern.FindEnvelope(f) == Some(Pattern.Span(0, 2, 4 + |E|, 8 + |E| + |P|))
  {
    var m := Pattern.Span(0, 2, 4 + |E|, 8 + |E| + |P|);
    EnvelopeMatches(f, E, P);
    EnvelopeGroups(f, E, P);
    assert Pattern.IsEnvelope(f, m);
    Pattern.FindEnvelopeWhole(f, m);
  }

  lemma DecodeJsonEnvelope(f: string, E: string, P: string)
    requires f == "42[\"" + E + "\",\"" + P + "\"]"
    requires '\n' !in E && '\n' !in P && Pattern.JsonBody(E)
    ensures DecodeJson(f) == Message(E, P)
  {
    AtoiRejectsEnvelope(f, "\"" + E + "\",\"" + P + "\"]");
    FindEnvelopeIn(f, E, P);
    EnvelopeMatches(f, E, P);
    EnvelopeGroups(f, E, P);
    StripQuotesUnwraps(P);
  }

  /** Envelope round trip through the corrected decoder: for every event and payload,
      decoding the `Emit` frame gives both back in their JSON-escaped form. */
  lemma EnvelopeRoundTripJson(e: string, p: string)
    ensures DecodeJson(Wire.EventFrame(e, p)) == Message(Json.Escape(e), Json.Escape(p))
  {
    EventFrameLayout(e, p);
    EscapeIsBody(e);
    DecodeJsonEnvelope(Wire.EventFrame(e, p), Json.Escape(e), Json.Escape(p));
  }

  /** For event and payload that `json.Marshal` copies as they are, the corrected
      decoder gives back exactly the pair from the `Emit` frame, a payload starting
      with `,` included. */
  lemma EnvelopeRoundTripLiteral(e: string, p: string)
    requires Json.IsLiteralString(e) && Json.IsLiteralString(p)
    ensures DecodeJson(Wire.EventFrame(e, p)) == Message(e, p)
  {
    EnvelopeRoundTripJson(e, p);
  }

  /** The frame `1["e",]` has an empty payload capture: the decoder as written panics
      on it, where the checked decoder reads an empty payload. */
  lemma EmptyPayloadPanics()
    ensures DecodeAsWritten("1[\"e\",]") == Failure(IndexOutOfRange)
    ensures Decode("1[\"e\",]") == Message("e", "")
  {
    var f := "1[\"e\",]";
    var m := Pattern.Span(0, 1, 4, 6);
    EmptyCaptureAtoi();
    EmptyCaptureFind();
    DecodeFound(f, m);
    EmptyCaptureGroups();
    DecodeAgrees(f);
  }

  lemma EmptyCaptureAtoi()
    ensures Decimal.Atoi("1[\"e\",]") == None
  {
    var f := "1[\"e\",]";
    assert !Decimal.IsDigit(f[1]);
    assert Decimal.Magnitude(f) == f;
  }

  lemma EmptyCaptureFind()
    ensures Pattern.Find("1[\"e\",]") == Some(Pattern.Span(0, 1, 4, 6))
  {
    var f := "1[\"e\",]";
    assert f[0] == '1' && f[1] == '[' && f[2] == '"' && f[3] == 'e' && f[4] == '"' && f[5] == ',' && f[6] == ']';
    Pattern.FindWhole(f, Pattern.Span(0, 1, 4, 6));
  }

  lemma EmptyCaptureGroups()
    requires Pattern.IsMatch("1[\"e\",]", Pattern.Span(0, 1, 4, 6))
    ensures Pattern.Group1("1[\"e\",]", Pattern.Span(0, 1, 4, 6)) == "e"
    ensures Pattern.Group2("1[\"e\",]", Pattern.Span(0, 1, 4, 6)) == ""
  {
  }

  /** A payload that begins with `,` does not survive the trip: the frame built for
      event `msg` and payload `,hi` decodes as event `msg",` with payload `hi"`,
      because group 1 runs to the last `",` on the line. */
  lemma LeadingCommaMisparsed()
    ensures Decode(Wire.EventFrame("msg", ",hi")) == Message("msg\",", "hi\"")
  {
    CommaFrame();
    CommaDecode();
  }

  /** The corrected decoder reads the same frame as event `msg` and payload `,hi`. */
  lemma LeadingCommaFixed()
    ensures DecodeJson(Wire.EventFrame("msg", ",hi")) == Message("msg", ",hi")
  {
    EnvelopeRoundTripJson("msg", ",hi");
    EscapeMsg();
    EscapeHi();
  }

  lemma CommaDecode()
    ensures Decode("42[\"msg\",\",hi\"]") == Message("msg\",", "hi\"")
  {
    var f := "42[\"msg\",\",hi\"]";
    var m := Pattern.Span(0, 2, 9, 14);
    AtoiRejectsEnvelope(f, "\"msg\",\",hi\"]");
    CommaFind();
    DecodeFound(f, m);
    CommaGroups();
  }

  lemma CommaFrame()
    ensures Wire.EventFrame("msg", ",hi") == "42[\"msg\",\",hi\"]"
  {
    EventFrameLayout("msg", ",hi");
    EscapeMsg();
    EscapeHi();
  }

  lemma EscapeMsg()
    ensures Json.Escape("msg") == "msg"
  {
    assert Json.IsLiteral('m') && Json.IsLiteral('s') && Json.IsLiteral('g');
    assert Json.IsLiteralString("msg");
  }

  lemma EscapeHi()
    ensures Json.Escape(",hi") == ",hi"
  {
    assert Json.IsLiteral(',') && Json.IsLiteral('h') && Json.IsLiteral('i');
    assert Json.IsLiteralString(",hi");
  }

  lemma CommaFind()
    ensures Pattern.Find("42[\"msg\",\",hi\"]") == Some(Pattern.Span(0, 2, 9, 14))
  {
    var f := "42[\"msg\",\",hi\"]";
    assert |f| == 15;
    assert f[0] == '4' && f[1] == '2' && f[2] == '[' && f[3] == '"' && f[9] == '"' && f[10] == ',' && f[14] == ']';
    assert f[11] == 'h' && f[12] == 'i' && f[13] == '"';
    assert forall j :: 0 <= j < |f| ==> f[j] != '\n';
    Pattern.FindWhole(f, Pattern.Span(0, 2, 9, 14));
  }

  lemma CommaGroups()
    requires Pattern.IsMatch("42[\"msg\",\",hi\"]", Pattern.Span(0, 2, 9, 14))
    ensures Pattern.Group1("42[\"msg\",\",hi\"]", Pattern.Span(0, 2, 9, 14)) == "msg\","
    ensures StripQuotes(Pattern.Group2("42[\"msg\",\",hi\"]", Pattern.Span(0, 2, 9, 14))) == "hi\""
  {
  }
}

=== FILE: json.dfy ===
/**
 Go's `encoding/json` string encoding as `json.Marshal` uses it (HTML escaping on),
 and a reference decoder for JSON string bodies that undoes it.
 */
module Json {
  import opened Wrappers

  const HexDigits: string := "0123456789abcdef"

  /** Characters `json.Marshal` copies into a string literal as they are. */
  predicate IsLiteral(c: char) {
    ' ' <= c && c != '"' && c != '\\' && c != '<' && c != '>' && c != '&'
    && c != '\U{2028}' && c != '\U{2029}'
  }

  predicate IsLiteralString(s: string) {
    forall i :: 0 <= i < |s| ==> IsLiteral(s[i])
  }

  /** Four lower-case hex digits of `n`, most significant first. */
  function HexQuad(n: nat): (r: string)
    requires n < 0x10000
    ensures |r| == 4
    ensures forall i :: 0 <= i < 4 ==> r[i] in HexDigits
  {
    var q1 := n / 16;
    var q2 := q1 / 16;
    var q3 := q2 / 16;
    [HexDigits[q3], HexDigits[q2 % 16], HexDigits[q1 % 16], HexDigits[n % 16]]
  }

  /** The escape of one character: quote and backslash are backslashed, the five
      short control escapes are used where they exist, every other control
      character and the HTML-sensitive `<`, `>`, `&` and U+2028, U+2029 become `\uXXXX`. */
  function EscapeChar(c: char): (r: string)
    ensures |r| >= 1
    ensures IsLiteral(c) <==> r == [c]
    ensures !IsLiteral(c) ==> |r| >= 2 && r[0] == '\\'
    ensures '\n' !in r
    ensures '"' in r ==> c == '"'
  {
    if IsLiteral(c) then [c]
    else if c == '"' || c == '\\' then ['\\', c]
    else if c == '\U{8}' then "\\b"
    else if c == '\U{C}' then "\\f"
    else if c == '\n' then "\\n"
    else if c == '\r' then "\\r"
    else if c == '\t' then "\\t"
    else
      HexQuadClean(c as int);
      "\\u" + HexQuad(c as int)
  }

  /** Hex digits are neither newlines nor quotes. */
  lemma HexQuadClean(n: nat)
    requires n < 0x10000
    ensures '\n' !in HexQuad(n) && '"' !in HexQuad(n)
  {
    var r := HexQuad(n);
    assert forall j :: 0 <= j < |HexDigits| ==> '0' <= HexDigits[j] <= 'f';
    forall i | 0 <= i < 4 ensures r[i] != '\n' && r[i] != '"' {
      assert r[i] in HexDigits;
    }
  }

  /** The body of the JSON string literal `json.Marshal` writes for `s`. */
  function Escape(s: string): (r: string)
    ensures '\n' !in r
    ensures '"' !in s ==> '"' !in r
    ensures IsLiteralString(s) ==> r == s
    ensures |r| >= |s|
    ensures |s| > 0 && IsLiteral(s[0]) ==> r[0] == s[0]
    ensures |s| > 0 && !IsLiteral(s[0]) ==> r[0] == '\\'
  {
    if s == [] then [] else EscapeChar(s[0]) + Escape(s[1..])
  }

  /** The JSON string literal for `s`, quotes included. */
  function Quote(s: string): string {
    "\"" + Escape(s) + "\""
  }

  /** `json.Marshal([]string{a, b})`. */
  function Array2(a: string, b: string): string {
    "[" + Quote(a) + "," + Quote(b) + "]"
  }

  // ---------------------------------------------------------------------------
  // Reference decoder

  function HexValue(c: char): Option<nat> {
    if '0' <= c <= '9' then Some(c as int - '0' as int)
    else if 'a' <= c <= 'f' then Some(c as int - 'a' as int + 10)
    else if 'A' <= c <= 'F' then Some(c as int - 'A' as int + 10)
    else None
  }

  function Hex4(q: string): Option<nat>
    requires |q| == 4
  {
    var a, b, c, d := HexValue(q[0]), HexValue(q[1]), HexValue(q[2]), HexValue(q[3]);
    if a.Some? && b.Some? && c.Some? && d.Some? then
      Some(((a.value * 16 + b.value) * 16 + c.value) * 16 + d.value)
    else None
  }

  predicate IsScalar(n: int) {
    0 <= n < 0xD800 || 0xE000 <= n < 0x11_0000
  }

  /** The character a one-letter escape `\x` stands for. */
  function ShortEscape(x: char): Option<char> {
    match x
    case '"' => Some('"')
    case '\\' => Some('\\')
    case '/' => Some('/')
    case 'b' => Some('\U{8}')
    case 'f' => Some('\U{C}')
    case 'n' => Some('\n')
    case 'r' => Some('\r')
    case 't' => Some('\t')
    case _ => None
  }

  function Prepend(c: char, rest: Option<string>): Option<string> {
    match rest
    case None => None
    case Some(t) => Some([c] + t)
  }

  /** Decodes the body of a JSON string literal: rejects raw quotes and control
      characters, and `\u` escapes of surrogate code units (pairs are not joined). */
  function Unescape(s: string): Option<string>
    decreases |s|
  {
    if s == [] then Some([])
    else if s[0] == '\\' then
      if |s| < 2 then None
      else if ShortEscape(s[1]).Some? then Prepend(ShortEscape(s[1]).value, Unescape(s[2..]))
      else if s[1] == 'u' && |s| >= 6 then
        match Hex4(s[2..6])
        case None => None
        case Some(n) => if IsScalar(n) then Prepend(n as char, Unescape(s[6..])) else None
      else None
    else if s[0] == '"' || s[0] < ' ' then None
    else Prepend(s[0], Unescape(s[1..]))
  }

  lemma HexDigitValue(d: nat)
    requires d < 16
    ensures HexValue(HexDigits[d]) == Some(d)
  {
  }

  lemma Hex4OfDigits(a: nat, b: nat, c: nat, d: nat)
    requires a < 16 && b < 16 && c < 16 && d < 16
    ensures Hex4([HexDigits[a], HexDigits[b], HexDigits[c], HexDigits[d]])
            == Some(((a * 16 + b) * 16 + c) * 16 + d)
  {
    HexDigitValue(a);
    HexDigitValue(b);
    HexDigitValue(c);
    HexDigitValue(d);
  }

  lemma QuadDigits(n: nat)
    requires n < 0x10000
    ensures n / 16 / 16 / 16 < 16
    ensures ((n / 16 / 16 / 16 * 16 + n / 16 / 16 % 16) * 16 + n / 16 % 16) * 16 + n % 16 == n
  {
    var q1 := n / 16;
    var q2 := q1 / 16;
    assert q2 / 16 * 16 + q2 % 16 == q2;
    assert q1 / 16 * 16 + q1 % 16 == q1;
  }

  lemma Hex4OfHexQuad(n: nat)
    requires n < 0x10000
    ensures Hex4(HexQuad(n)) == Some(n)
  {
    var q1 := n / 16;
    var q2 := q1 / 16;
    var a, b, c, d := q2 / 16, q2 % 16, q1 % 16, n % 16;
    QuadDigits(n);
    assert ((a * 16 + b) * 16 + c) * 16 + d == n;
    assert HexQuad(n) == [HexDigits[a], HexDigits[b], HexDigits[c], HexDigits[d]];
    Hex4OfDigits(a, b, c, d);
  }

  lemma UnescapeShort(x: char, c: char, t: string)
    requires ShortEscape(x) == Some(c)
    ensures Unescape(['\\', x] + t) == Prepend(c, Unescape(t))
  {
    assert (['\\', x] + t)[2..] == t;
  }

  lemma UnescapeUnicode(c: char, t: string)
    requires c as int < 0x10000
    ensures Unescape("\\u" + HexQuad(c as int) + t) == Prepend(c, Unescape(t))
  {
    var n := c as int;
    var s := "\\u" + HexQuad(n) + t;
    assert s[0] == '\\' && s[1] == 'u' && |s| >= 6;
    assert ShortEscape(s[1]) == None;
    assert s[2..6] == HexQuad(n);
    Hex4OfHexQuad(n);
    assert Hex4(s[2..6]) == Some(n);
    assert IsScalar(n);
    assert s[6..] == t;
    assert n as char == c;
  }

  lemma UnescapeChunk(c: char, t: string)
    ensures Unescape(EscapeChar(c) + t) == Prepend(c, Unescape(t))
  {
    if IsLiteral(c) {
      assert ([c] + t)[1..] == t;
    } else if c == '"' || c == '\\' {
      UnescapeShort(c, c, t);
    } else if c == '\U{8}' {
      UnescapeShort('b', c, t);
    } else if c == '\U{C}' {
      UnescapeShort('f', c, t);
    } else if c == '\n' {
      UnescapeShort('n', c, t);
    } else if c == '\r' {
      UnescapeShort('r', c, t);
    } else if c == '\t' {
      UnescapeShort('t', c, t);
    } else {
      UnescapeUnicode(c, t);
    }
  }

  /** The reference decoder inverts `json.Marshal`'s string escaping: no two strings share an encoding. */
  lemma {:induction false} UnescapeEscape(s: string)
    ensures Unescape(Escape(s)) == Some(s)
  {
    if s != [] {
      UnescapeEscape(s[1..]);
      UnescapeChunk(s[0], Escape(s[1..]));
      assert [s[0]] + s[1..] == s;
    }
  }
}

=== FILE: pattern.dfy ===
/**
 The inbound envelope pattern `\d+\["(.*)",(.*)\]` under Go's `regexp.FindSubmatch`:
 unanchored, leftmost-first, greedy, with `.` matching any character but a newline.
 */
module Pattern {
  import opened Wrappers
  import Decimal

  /** Positions of one match in a frame `s`: digits `s[start..open]`, `[` at `open`,
      `"` at `open + 1`, group 1 `s[open + 2..sep]`, `",` at `sep`, group 2
      `s[sep + 2..close]`, and `]` at `close`. */
  datatype Span = Span(start: nat, open: nat, sep: nat, close: nat)

  /** `m` is a way for the pattern to match `s`. */
  ghost predicate IsMatch(s: string, m: Span) {
    && m.start < m.open && m.open + 2 <= m.sep && m.sep + 2 <= m.close && m.close < |s|
    && (forall j :: m.start <= j < m.open ==> Decimal.IsDigit(s[j]))
    && s[m.open] == '[' && s[m.open + 1] == '"'
    && s[m.sep] == '"' && s[m.sep + 1] == ','
    && s[m.close] == ']'
    && (forall j :: m.open + 2 <= j < m.sep ==> s[j] != '\n')
    && (forall j :: m.sep + 2 <= j < m.close ==> s[j] != '\n')
  }

  /** The order in which a backtracking matcher tries matches: earlier start first,
      then, each quantifier being greedy, longer `\d+`, longer group 1, longer group 2. */
  predicate Outranks(m: Span, n: Span) {
    || m.start < n.start
    || (m.start == n.start && m.open > n.open)
    || (m.start == n.start && m.open == n.open && m.sep > n.sep)
    || (m.start == n.start && m.open == n.open && m.sep == n.sep && m.close >= n.close)
  }

  /** The match `FindSubmatch` reports: a match that outranks every other. */
  ghost predicate IsSelected(s: string, m: Span) {
    IsMatch(s, m) && forall n :: IsMatch(s, n) ==> Outranks(m, n)
  }

  lemma OutranksAntisymmetric(m: Span, n: Span)
    requires Outranks(m, n) && Outranks(n, m)
    ensures m == n
  {
  }

  /** At most one match is selected. */
  lemma SelectedUnique(s: string, m: Span, n: Span)
    requires IsSelected(s, m) && IsSelected(s, n)
    ensures m == n
  {
    OutranksAntisymmetric(m, n);
  }

  /** End of the digit run starting at `i`. */
  function DigitsEnd(s: string, i: nat): (k: nat)
    requires i <= |s|
    ensures i <= k <= |s|
    ensures forall j :: i <= j < k ==> Decimal.IsDigit(s[j])
    ensures k < |s| ==> !Decimal.IsDigit(s[k])
    decreases |s| - i
  {
    if i < |s| && Decimal.IsDigit(s[i]) then DigitsEnd(s, i + 1) else i
  }

  /** Index of the first newline at or after `i`, or `|s|`. */
  function LineEnd(s: string, i: nat): (e: nat)
    requires i <= |s|
    ensures i <= e <= |s|
    ensures forall j :: i <= j < e ==> s[j] != '\n'
    ensures e < |s| ==> s[e] == '\n'
    decreases |s| - i
  {
    if i < |s| && s[i] != '\n' then LineEnd(s, i + 1) else i
  }

  /** Index of the last `]` in `s[lo..hi]`. */
  function LastClose(s: string, lo: nat, hi: nat): (r: Option<nat>)
    requires lo <= hi <= |s|
    ensures r.Some? ==> lo <= r.value < hi && s[r.value] == ']'
    ensures r.Some? ==> forall j :: r.value < j < hi ==> s[j] != ']'
    ensures r.None? ==> forall j :: lo <= j < hi ==> s[j] != ']'
    decreases hi - lo
  {
    if lo == hi then None
    else if s[hi - 1] == ']' then Some(hi - 1)
    else LastClose(s, lo, hi - 1)
  }

  /** Index of the last `",` lying wholly inside `s[lo..hi]`. */
  function LastSep(s: string, lo: nat, hi: nat): (r: Option<nat>)
    requires lo <= hi <= |s|
    ensures r.Some? ==> lo <= r.value && r.value + 2 <= hi && s[r.value] == '"' && s[r.value + 1] == ','
    ensures r.Some? ==> forall j :: r.value < j && j + 2 <= hi ==> !(s[j] == '"' && s[j + 1] == ',')
    ensures r.None? ==> forall j :: lo <= j && j + 2 <= hi ==> !(s[j] == '"' && s[j + 1] == ',')
    decreases hi - lo
  {
    if hi < lo + 2 then None
    else if s[hi - 2] == '"' && s[hi - 1] == ',' then Some(hi - 2)
    else LastSep(s, lo, hi - 1)
  }

  /** Every match starting at `i` has its `[` where the digit run from `i` ends, and
      lies on the line that starts after `["`. */
  lemma MatchShape(s: string, i: nat, m: Span)
    requires i <= |s| && IsMatch(s, m) && m.start == i
    ensures m.open == DigitsEnd(s, i)
    ensures m.close < LineEnd(s, m.open + 2)
  {
    var k := DigitsEnd(s, i);
    assert !Decimal.IsDigit(s[m.open]);
    var e := LineEnd(s, m.open + 2);
    assert s[m.sep] != '\n' && s[m.sep + 1] != '\n' && s[m.close] != '\n';
  }

  /** `s[i..]` opens with digits and `["`; the groups would start at `OpenEnd(s, i) + 2`. */
  predicate Opens(s: string, i: nat)
    requires i <= |s|
  {
    var k := DigitsEnd(s, i);
    k != i && k + 2 <= |s| && s[k] == '[' && s[k + 1] == '"'
  }

  lemma NoMatchWithoutOpening(s: string, i: nat)
    requires i <= |s| && !Opens(s, i)
    ensures forall n :: IsMatch(s, n) ==> n.start != i
  {
    forall n | IsMatch(s, n) && n.start == i ensures false {
      MatchShape(s, i, n);
    }
  }

  /** What the scans establish about the text after `i`: a digit run up to `k`, then
      `["`, then the line the groups must lie on, which ends at `e`. */
  ghost predicate OnLine(s: string, i: nat, k: nat, e: nat) {
    && i < k && k + 2 <= e <= |s|
    && (forall j :: i <= j < k ==> Decimal.IsDigit(s[j]))
    && s[k] == '[' && s[k + 1] == '"'
    && (forall j :: k + 2 <= j < e ==> s[j] != '\n')
    && (e < |s| ==> s[e] == '\n')
  }

  lemma LineFacts(s: string, i: nat)
    requires i <= |s| && Opens(s, i)
    ensures OnLine(s, i, DigitsEnd(s, i), LineEnd(s, DigitsEnd(s, i) + 2))
  {
  }

  /** A match starting at `i` has its `[` at `k` and ends before the line does. */
  lemma MatchOnLine(s: string, i: nat, k: nat, e: nat, n: Span)
    requires OnLine(s, i, k, e) && IsMatch(s, n) && n.start == i
    ensures n.open == k && n.close < e
  {
    assert !Decimal.IsDigit(s[n.open]) && !Decimal.IsDigit(s[k]);
    assert s[n.sep] != '\n' && s[n.sep + 1] != '\n' && s[n.close] != '\n';
  }

  lemma NoMatchWithoutClose(s: string, i: nat, k: nat, e: nat)
    requires OnLine(s, i, k, e)
    requires forall j :: k + 2 <= j < e ==> s[j] != ']'
    ensures forall n :: IsMatch(s, n) ==> n.start != i
  {
    forall n | IsMatch(s, n) && n.start == i ensures false {
      MatchOnLine(s, i, k, e, n);
    }
  }

  lemma NoMatchWithoutSep(s: string, i: nat, k: nat, e: nat, c: nat)
    requires OnLine(s, i, k, e) && k + 2 <= c < e
    requires forall j :: c < j < e ==> s[j] != ']'
    requires forall j :: k + 2 <= j && j + 2 <= c ==> !(s[j] == '"' && s[j + 1] == ',')
    ensures forall n :: IsMatch(s, n) ==> n.start != i
  {
    forall n | IsMatch(s, n) && n.start == i ensures false {
      MatchOnLine(s, i, k, e, n);
    }
  }

  lemma BestAt(s: string, i: nat, k: nat, e: nat, c: nat, b: nat)
    requires OnLine(s, i, k, e) && k + 2 <= b && b + 2 <= c < e
    requires s[c] == ']' && forall j :: c < j < e ==> s[j] != ']'
    requires s[b] == '"' && s[b + 1] == ','
    requires forall j :: b < j && j + 2 <= c ==> !(s[j] == '"' && s[j + 1] == ',')
    ensures IsMatch(s, Span(i, k, b, c))
    ensures forall n :: IsMatch(s, n) && n.start == i ==> Outranks(Span(i, k, b, c), n)
  {
    forall n | IsMatch(s, n) && n.start == i ensures Outranks(Span(i, k, b, c), n) {
      MatchOnLine(s, i, k, e, n);
      assert s[n.close] == ']' && s[n.sep] == '"' && s[n.sep + 1] == ',';
    }
  }

  /** The preferred match starting exactly at `i`, if any. */
  function MatchAt(s: string, i: nat): (r: Option<Span>)
    requires i <= |s|
    ensures r.Some? ==> IsMatch(s, r.value) && r.value.start == i
    ensures r.Some? ==> forall n :: IsMatch(s, n) && n.start == i ==> Outranks(r.value, n)
    ensures r.None? ==> forall n :: IsMatch(s, n) ==> n.start != i
  {
    if !Opens(s, i) then
      NoMatchWithoutOpening(s, i);
      None
    else
      var k := DigitsEnd(s, i);
      var e := LineEnd(s, k + 2);
      LineFacts(s, i);
      match LastClose(s, k + 2, e)
      case None =>
        NoMatchWithoutClose(s, i, k, e);
        None
      case Some(c) =>
        match LastSep(s, k + 2, c)
        case None =>
          NoMatchWithoutSep(s, i, k, e, c);
          None
        case Some(b) =>
          BestAt(s, i, k, e, c, b);
          Some(Span(i, k, b, c))
  }

  /** The preferred match starting at or after `i`. */
  function FindFrom(s: string, i: nat): (r: Option<Span>)
    requires i <= |s|
    ensures r.Some? ==> IsMatch(s, r.value) && i <= r.value.start
    ensures r.Some? ==> forall n :: IsMatch(s, n) && i <= n.start ==> Outranks(r.value, n)
    ensures r.None? ==> forall n :: IsMatch(s, n) ==> n.start < i
    decreases |s| - i
  {
    if i == |s| then None
    else
      match MatchAt(s, i)
      case Some(m) => Some(m)
      case None => FindFrom(s, i + 1)
  }

  /** `re.FindSubmatch(s)`: the selected match, or none when the pattern does not occur. */
  function Find(s: string): (r: Option<Span>)
    ensures r.Some? ==> IsSelected(s, r.value)
    ensures r.None? <==> forall n :: !IsMatch(s, n)
  {
    FindFrom(s, 0)
  }

  /** The match `Find` reports is the only selected one. */
  lemma FindSelectsOnly(s: string)
    ensures forall n :: IsSelected(s, n) <==> Find(s) == Some(n)
  {
    forall n | IsSelected(s, n)
      ensures Find(s) == Some(n)
    {
      SelectedUnique(s, n, Find(s).value);
    }
  }

  /** A match that starts the frame, ends at its last character, and has no later
      `",` before its `]` is the one `Find` reports. */
  lemma FindWhole(s: string, m: Span)
    requires IsMatch(s, m) && m.start == 0 && m.close == |s| - 1
    requires forall j :: m.sep < j && j + 2 <= m.close ==> !(s[j] == '"' && s[j + 1] == ',')
    ensures Find(s) == Some(m)
  {
    forall n | IsMatch(s, n) ensures Outranks(m, n) {
      if n.start == 0 {
        MatchShape(s, 0, n);
        MatchShape(s, 0, m);
        assert s[n.sep] == '"' && s[n.sep + 1] == ',';
      }
    }
    SelectedUnique(s, m, Find(s).value);
  }

  // ---------------------------------------------------------------------------
  // The corrected pattern: group 1 read as a JSON string body
  // ---------------------------------------------------------------------------

  /** `t` is the body of a JSON string literal kept on one line: characters other than
      `"`, `\` and newline, and backslash pairs whose second character is not a newline. */
  predicate JsonBody(t: string)
    decreases |t|
  {
    if t == [] then true
    else if t[0] == '\\' then |t| >= 2 && t[1] != '\n' && JsonBody(t[2..])
    else t[0] != '"' && t[0] != '\n' && JsonBody(t[1..])
  }

  lemma {:induction false} BodyOnOneLine(t: string)
    requires JsonBody(t)
    ensures forall j :: 0 <= j < |t| ==> t[j] != '\n'
    decreases |t|
  {
    if t != [] {
      var k := if t[0] == '\\' then 2 else 1;
      BodyOnOneLine(t[k..]);
      assert forall j :: k <= j < |t| ==> t[j] == t[k..][j - k];
    }
  }

  /** Scanning `s` from `a` as a JSON string body: the index of the closing quote,
      each backslash skipping the character after it. */
  function BodyEnd(s: string, a: nat): (r: Option<nat>)
    requires a <= |s|
    ensures r.Some? ==> a <= r.value < |s| && s[r.value] == '"' && JsonBody(s[a..r.value])
    decreases |s| - a
  {
    if a == |s| || s[a] == '\n' then None
    else if s[a] == '"' then Some(a)
    else if s[a] == '\\' then
      if a + 1 == |s| || s[a + 1] == '\n' then None
      else
        var r := BodyEnd(s, a + 2);
        if r.None? then None
        else
          assert s[a..r.value][2..] == s[a + 2..r.value];
          r
    else
      var r := BodyEnd(s, a + 1);
      if r.None? then None
      else
        assert s[a..r.value][1..] == s[a + 1..r.value];
        r
  }

  /** A JSON string body followed by a quote is exactly what the scan finds: the
      closing quote of group 1 is determined by where the group starts. */
  lemma {:induction false} BodyEndFinds(s: string, a: nat, b: nat)
    requires a <= b < |s| && s[b] == '"' && JsonBody(s[a..b])
    ensures BodyEnd(s, a) == Some(b)
    decreases b - a
  {
    if a < b {
      var t := s[a..b];
      assert t[0] == s[a];
      if s[a] == '\\' {
        assert t[1] == s[a + 1] && t[2..] == s[a + 2..b];
        BodyEndFinds(s, a + 2, b);
      } else {
        assert t[1..] == s[a + 1..b];
        BodyEndFinds(s, a + 1, b);
      }
    }
  }

  /** `m` is a way for the corrected pattern to match `s`: a match whose group 1 is a
      JSON string body. */
  ghost predicate IsEnvelope(s: string, m: Span) {
    IsMatch(s, m) && JsonBody(s[m.open + 2..m.sep])
  }

  /** The match the corrected search reports, ranked as the backtracking matcher ranks. */
  ghost predicate IsSelectedEnvelope(s: string, m: Span) {
    IsEnvelope(s, m) && forall n :: IsEnvelope(s, n) ==> Outranks(m, n)
  }

  /** An envelope match starting at `i` has its `[` where the digit run ends and its
      `",` where the body scan stops. */
  lemma EnvelopeShape(s: string, i: nat, n: Span)
    requires i <= |s| && IsEnvelope(s, n) && n.start == i
    ensures n.open == DigitsEnd(s, i)
    ensures BodyEnd(s, n.open + 2) == Some(n.sep)
    ensures n.close < LineEnd(s, n.open + 2)
    ensures n.sep + 2 <= n.close < |s| && s[n.sep + 1] == ',' && s[n.close] == ']'
  {
    MatchShape(s, i, n);
    BodyEndFinds(s, n.open + 2, n.sep);
  }

  lemma NoEnvelopeWithoutEnd(s: string, i: nat)
    requires i <= |s| && Opens(s, i) && BodyEnd(s, DigitsEnd(s, i) + 2).None?
    ensures forall n :: IsEnvelope(s, n) ==> n.start != i
  {
    forall n | IsEnvelope(s, n) && n.start == i ensures false {
      EnvelopeShape(s, i, n);
    }
  }

  /** An envelope match starting at `i` has its `[` at `k`, its `",` where the body
      from `k + 2` ends, and ends before the line does. */
  lemma EnvelopeOnLine(s: string, i: nat, k: nat, e: nat, b: nat, n: Span)
    requires OnLine(s, i, k, e) && k + 2 <= b < |s| && s[b] == '"' && JsonBody(s[k + 2..b])
    requires IsEnvelope(s, n) && n.start == i
    ensures n.open == k && n.sep == b && n.close < e
  {
    MatchOnLine(s, i, k, e, n);
    BodyUnique(s, k + 2, n.sep, b);
  }

  /** A JSON string body starting at `a` ends at one quote only. */
  lemma BodyUnique(s: string, a: nat, x: nat, y: nat)
    requires a <= x < |s| && s[x] == '"' && JsonBody(s[a..x])
    requires a <= y < |s| && s[y] == '"' && JsonBody(s[a..y])
    ensures x == y
  {
    BodyEndFinds(s, a, x);
    BodyEndFinds(s, a, y);
  }

  lemma NoEnvelopeWithoutSep(s: string, i: nat, k: nat, e: nat, b: nat)
    requires OnLine(s, i, k, e) && k + 2 <= b < |s| && s[b] == '"' && JsonBody(s[k + 2..b])
    requires b + 2 > |s| || s[b + 1] != ','
    ensures forall n :: IsEnvelope(s, n) ==> n.start != i
  {
    forall n | IsEnvelope(s, n) && n.start == i ensures false {
      EnvelopeOnLine(s, i, k, e, b, n);
    }
  }

  /** The body and its `",` lie on the line that starts after `["`. */
  lemma BodyWithinLine(s: string, i: nat, k: nat, e: nat, b: nat)
    requires OnLine(s, i, k, e) && k + 2 <= b && b + 2 <= |s| && JsonBody(s[k + 2..b])
    requires s[b] == '"' && s[b + 1] == ','
    ensures b + 2 <= e
  {
    var t := s[k + 2..b];
    BodyOnOneLine(t);
    assert forall j :: k + 2 <= j < b ==> s[j] == t[j - k - 2];
  }

  lemma NoEnvelopeWithoutClose(s: string, i: nat, k: nat, e: nat, b: nat)
    requires OnLine(s, i, k, e) && k + 2 <= b && b + 2 <= e && s[b] == '"' && JsonBody(s[k + 2..b])
    requires forall j :: b + 2 <= j < e ==> s[j] != ']'
    ensures forall n :: IsEnvelope(s, n) ==> n.start != i
  {
    forall n | IsEnvelope(s, n) && n.start == i ensures false {
      EnvelopeOnLine(s, i, k, e, b, n);
    }
  }

  lemma BestEnvelopeAt(s: string, i: nat, k: nat, e: nat, b: nat, c: nat)
    requires OnLine(s, i, k, e) && k + 2 <= b && b + 2 <= c < e
    requires s[b] == '"' && s[b + 1] == ',' && JsonBody(s[k + 2..b])
    requires s[c] == ']' && forall j :: c < j < e ==> s[j] != ']'
    ensures IsEnvelope(s, Span(i, k, b, c))
    ensures forall n :: IsEnvelope(s, n) && n.start == i ==> Outranks(Span(i, k, b, c), n)
  {
    EnvelopeFromParts(s, Span(i, k, b, c));
    forall n | IsEnvelope(s, n) && n.start == i ensures Outranks(Span(i, k, b, c), n) {
      EnvelopeOnLine(s, i, k, e, b, n);
    }
  }

  /** A span with the pattern's delimiters, a digit run, a JSON string body as group 1
      and a group 2 free of newlines is an envelope match. */
  lemma EnvelopeFromParts(s: string, m: Span)
    requires m.start < m.open && m.open + 2 <= m.sep && m.sep + 2 <= m.close < |s|
    requires forall j :: m.start <= j < m.open ==> Decimal.IsDigit(s[j])
    requires s[m.open] == '[' && s[m.open + 1] == '"'
    requires s[m.sep] == '"' && s[m.sep + 1] == ',' && s[m.close] == ']'
    requires JsonBody(s[m.open + 2..m.sep])
    requires forall j :: m.sep + 2 <= j < m.close ==> s[j] != '\n'
    ensures IsEnvelope(s, m)
  {
    var t := s[m.open + 2..m.sep];
    BodyOnOneLine(t);
    assert forall j :: m.open + 2 <= j < m.sep ==> s[j] == t[j - m.open - 2];
  }

  /** The corrected match starting exactly at `i`, if any. */
  function EnvelopeAt(s: string, i: nat): (r: Option<Span>)
    requires i <= |s|
    ensures r.Some? ==> IsEnvelope(s, r.value) && r.value.start == i
    ensures r.Some? ==> forall n :: IsEnvelope(s, n) && n.start == i ==> Outranks(r.value, n)
    ensures r.None? ==> forall n :: IsEnvelope(s, n) ==> n.start != i
  {
    if !Opens(s, i) then
      NoMatchWithoutOpening(s, i);
      None
    else
      var k := DigitsEnd(s, i);
      var e := LineEnd(s, k + 2);
      LineFacts(s, i);
      match BodyEnd(s, k + 2)
      case None =>
        NoEnvelopeWithoutEnd(s, i);
        None
      case Some(b) =>
        if b + 2 > |s| || s[b + 1] != ',' then
          NoEnvelopeWithoutSep(s, i, k, e, b);
          None
        else
          BodyWithinLine(s, i, k, e, b);
          match LastClose(s, b + 2, e)
          case None =>
            NoEnvelopeWithoutClose(s, i, k, e, b);
            None
          case Some(c) =>
            BestEnvelopeAt(s, i, k, e, b, c);
            Some(Span(i, k, b, c))
  }

  /** The corrected match starting at or after `i`. */
  function FindEnvelopeFrom(s: string, i: nat): (r: Option<Span>)
    requires i <= |s|
    ensures r.Some? ==> IsEnvelope(s, r.value) && i <= r.value.start
    ensures r.Some? ==> forall n :: IsEnvelope(s, n) && i <= n.start ==> Outranks(r.value, n)
    ensures r.None? ==> forall n :: IsEnvelope(s, n) ==> n.start < i
    decreases |s| - i
  {
    if i == |s| then None
    else
      match EnvelopeAt(s, i)
      case Some(m) => Some(m)
      case None => FindEnvelopeFrom(s, i + 1)
  }

  /** The search with group 1 read as a JSON string body: the selected corrected match,
      or none when the corrected pattern does not occur. */
  function FindEnvelope(s: string): (r: Option<Span>)
    ensures r.Some? ==> IsSelectedEnvelope(s, r.value)
    ensures r.None? <==> forall n :: !IsEnvelope(s, n)
  {
    FindEnvelopeFrom(s, 0)
  }

  /** The corrected search reports what `FindSubmatch` reports exactly when nothing
      matches or the reported group 1 is a JSON string body. */
  lemma FindEnvelopeAgrees(s: string)
    ensures FindEnvelope(s) == Find(s) <==> Find(s).None? || JsonBody(Group1(s, Find(s).value))
  {
    if Find(s).Some? && JsonBody(Group1(s, Find(s).value)) {
      var m := Find(s).value;
      assert IsEnvelope(s, m);
      var e := FindEnvelope(s).value;
      OutranksAntisymmetric(m, e);
    }
  }

  lemma WholeOutranks(s: string, m: Span, n: Span)
    requires IsEnvelope(s, m) && m.start == 0 && m.close == |s| - 1
    requires IsEnvelope(s, n)
    ensures Outranks(m, n)
  {
    if n.start == 0 {
      EnvelopeShape(s, 0, n);
      EnvelopeShape(s, 0, m);
    }
  }

  /** An envelope match covering the whole frame from its first character is the one
      the corrected search reports; no condition on the payload is needed. */
  lemma FindEnvelopeWhole(s: string, m: Span)
    requires IsEnvelope(s, m) && m.start == 0 && m.close == |s| - 1
    ensures FindEnvelope(s) == Some(m)
  {
    forall n | IsEnvelope(s, n) ensures Outranks(m, n) {
      WholeOutranks(s, m, n);
    }
    OutranksAntisymmetric(m, FindEnvelope(s).value);
  }

  /** Capture group 1 (the event) of a match. */
  function Group1(s: string, m: Span): string
    requires IsMatch(s, m)
  {
    s[m.open + 2..m.sep]
  }

  /** Capture group 2 (the payload, quotes included) of a match. */
  function Group2(s: string, m: Span): string
    requires IsMatch(s, m)
  {
    s[m.sep + 2..m.close]
  }
}

=== FILE: registry.dfy ===
/**
 The two handler registries. `Client.On` and `Server.On` both take a name and an
 arbitrary value; reserved names route the value into a typed default-handler
 slot, any other name adds or overwrites an entry of the event map.
 */
module Registry {
  import opened Wrappers
  import opened Runtime

  // ---------------------------------------------------------------------------
  // Client side
  // ---------------------------------------------------------------------------

  /** The names `Client.On` treats as reserved. The array is declared with room for
      three names and filled with two, so its third element is the empty string. */
  const ClientReserved: seq<string> := ["onDisconnect", "onError", ""]

  /** Signatures of the client's two setters: `onDisconnect(func(string))` and
      `onError(func(error))`. */
  const ClientDisconnectSignature: Signature := Signature([StringType], [])
  const ClientErrorSignature: Signature := Signature([ErrorType], [])

  /** A client's event map and its two default handlers; `None` is a handler that
      was never set and is skipped when it would be called. */
  datatype ClientRegistry = ClientRegistry(
    events: map<string, Handler>,
    onDisconnect: Option<Handler>,
    onError: Option<Handler>)

  /** The registry a freshly admitted session starts with: no events, no handlers. */
  const EmptyClientRegistry: ClientRegistry := ClientRegistry(map[], None, None)

  /** `Client.On` over an initialised registry whose reserved names lead straight to
      the two setters. The empty name stays reserved, as the padded array makes it,
      and has no setter behind it, so its registration fails as the reflective call
      of a missing entry does. */
  function ClientOn(reg: ClientRegistry, name: string, h: Handler): (r: Result<ClientRegistry, Panic>)
    ensures h.NonFunc? ==> r == Failure(NotAFunc)
    ensures r.Success? <==>
      && h.Func?
      && (|| name !in ClientReserved
          || (name == "onDisconnect" && h.sig == ClientDisconnectSignature)
          || (name == "onError" && h.sig == ClientErrorSignature))
    ensures r.Success? && name in ClientReserved ==> r.value.events == reg.events
    ensures r.Success? && name !in ClientReserved ==>
      && r.value.events == reg.events[name := h]
      && r.value.onDisconnect == reg.onDisconnect && r.value.onError == reg.onError
    ensures r.Success? && name == "onDisconnect" ==> r.value == reg.(onDisconnect := Some(h))
    ensures r.Success? && name == "onError" ==> r.value == reg.(onError := Some(h))
    ensures h.Func? && name in ClientReserved && r.Failure? ==>
      r.error == (if name == "" then CallOfZeroValue else ArgumentTypeMismatch)
  {
    if h.NonFunc? then Failure(NotAFunc)
    else if name == "onDisconnect" then
      if h.sig == ClientDisconnectSignature then Success(reg.(onDisconnect := Some(h)))
      else Failure(ArgumentTypeMismatch)
    else if name == "onError" then
      if h.sig == ClientErrorSignature then Success(reg.(onError := Some(h)))
      else Failure(ArgumentTypeMismatch)
    else if name == "" then Failure(CallOfZeroValue)
    else Success(reg.(events := reg.events[name := h]))
  }

  /** No reserved name is a key: true of every map `Client.On` as written can build. */
  predicate NoReservedKeys(events: map<string, Handler>) {
    forall k :: k in ClientReserved ==> k !in events
  }

  /** `Client.On` as written, over the session's event map; `None` is the nil map a
      session is admitted with. A reserved name calls the map's entry for it, a
      missing entry being the zero `reflect.Value`; any other name writes the map. */
  function ClientOnAsWritten(events: Option<map<string, Handler>>, name: string, h: Handler): (r: Result<map<string, Handler>, Panic>)
    ensures h.NonFunc? ==> r == Failure(NotAFunc)
    ensures events.Some? && NoReservedKeys(events.value) && name in ClientReserved ==> r.Failure?
    ensures events.Some? && name !in ClientReserved && h.Func? ==> r == Success(events.value[name := h])
    ensures events.Some? && NoReservedKeys(events.value) && r.Success? ==> NoReservedKeys(r.value)
  {
    if h.NonFunc? then Failure(NotAFunc)
    else if name in ClientReserved then
      if events.Some? && name in events.value then Success(events.value)
      else Failure(CallOfZeroValue)
    else if events.None? then Failure(AssignmentToNilMap)
    else Success(events.value[name := h])
  }

  /** On the nil map a session is admitted with, every registration panics: reserved
      names find no entry to call, any other name writes the nil map. */
  lemma NilClientOnPanics(name: string, h: Handler)
    ensures ClientOnAsWritten(None, name, h).Failure?
    ensures h.Func? ==>
      ClientOnAsWritten(None, name, h).error == (if name in ClientReserved then CallOfZeroValue else AssignmentToNilMap)
  {
  }

  /** The registrations a sequence of `On` calls makes, stopping at the first panic. */
  function ClientOnAll(events: map<string, Handler>, calls: seq<(string, Handler)>): Result<map<string, Handler>, Panic>
    decreases |calls|
  {
    if calls == [] then Success(events)
    else
      var r := ClientOnAsWritten(Some(events), calls[0].0, calls[0].1);
      if r.Failure? then r else ClientOnAll(r.value, calls[1..])
  }

  /** Even over an initialised map, the code as written can never install a default
      handler: whatever registrations came first, a later reserved name panics. */
  lemma {:induction false} ReservedAlwaysPanics(events: map<string, Handler>, calls: seq<(string, Handler)>, name: string, h: Handler)
    requires NoReservedKeys(events)
    requires ClientOnAll(events, calls).Success?
    requires name in ClientReserved
    ensures NoReservedKeys(ClientOnAll(events, calls).value)
    ensures ClientOnAsWritten(Some(ClientOnAll(events, calls).value), name, h).Failure?
    decreases |calls|
  {
    if calls != [] {
      var r := ClientOnAsWritten(Some(events), calls[0].0, calls[0].1);
      ReservedAlwaysPanics(r.value, calls[1..], name, h);
    }
  }

  /** On freeform names the corrected registry and the code as written (once its map
      exists) agree exactly. */
  lemma ClientOnFreeformAgrees(reg: ClientRegistry, name: string, h: Handler)
    requires name !in ClientReserved
    ensures ClientOnAsWritten(Some(reg.events), name, h).Success? <==> ClientOn(reg, name, h).Success?
    ensures ClientOn(reg, name, h).Success? ==>
      ClientOnAsWritten(Some(reg.events), name, h).value == ClientOn(reg, name, h).value.events
  {
  }

  // ---------------------------------------------------------------------------
  // Server side
  // ---------------------------------------------------------------------------

  /** The server's three default handlers. */
  datatype Slot = OnConnect | OnDisconnect | OnError

  /** An entry of the server's event map: one of its own setter methods, seeded at
      construction, or a handler registered under a freeform name. */
  datatype Entry = Setter(slot: Slot) | Bound(handler: Handler)

  /** The server's event map and its default handlers; `None` is a nil func field. */
  datatype ServerRegistry = ServerRegistry(
    events: map<string, Entry>,
    onConnect: Option<Handler>,
    onDisconnect: Option<Handler>,
    onError: Option<Handler>)

  const ServerReserved: seq<string> := ["onConnect", "onDisconnect", "onError"]

  /** The map key each setter is seeded under. */
  function SlotName(slot: Slot): (r: string)
    ensures r in ServerReserved
  {
    match slot
    case OnConnect => "onConnect"
    case OnDisconnect => "onDisconnect"
    case OnError => "onError"
  }

  /** The func type each setter accepts: `func(Client) error`, `func(Client, string)`
      and `func(Client, error)`. */
  function SlotSignature(slot: Slot): Signature {
    match slot
    case OnConnect => Signature([ClientType], [ErrorType])
    case OnDisconnect => Signature([ClientType, StringType], [])
    case OnError => Signature([ClientType, ErrorType], [])
  }

  /** The handler currently in a slot. */
  function Installed(reg: ServerRegistry, slot: Slot): Option<Handler> {
    match slot
    case OnConnect => reg.onConnect
    case OnDisconnect => reg.onDisconnect
    case OnError => reg.onError
  }

  /** The registry with a slot's handler replaced. */
  function Install(reg: ServerRegistry, slot: Slot, h: Handler): (r: ServerRegistry)
    ensures r.events == reg.events
    ensures Installed(r, slot) == Some(h)
    ensures forall other :: other != slot ==> Installed(r, other) == Installed(reg, other)
  {
    match slot
    case OnConnect => reg.(onConnect := Some(h))
    case OnDisconnect => reg.(onDisconnect := Some(h))
    case OnError => reg.(onError := Some(h))
  }

  /** Every reserved name maps to its own setter. */
  predicate Seeded(reg: ServerRegistry) {
    forall slot: Slot :: SlotName(slot) in reg.events && reg.events[SlotName(slot)] == Setter(slot)
  }

  /** The registry `NewServer` builds: exactly the three setters, all handlers nil. */
  function NewServerRegistry(): (r: ServerRegistry)
    ensures Seeded(r)
    ensures r.events.Keys == set k | k in ServerReserved
    ensures forall slot: Slot :: Installed(r, slot) == None
  {
    ServerRegistry(
      map["onConnect" := Setter(OnConnect), "onDisconnect" := Setter(OnDisconnect), "onError" := Setter(OnError)],
      None, None, None)
  }

  /** The shape every server handler must have: at least one parameter, the first of
      a type named `Client`. */
  predicate ClientFirst(sig: Signature) {
    |sig.params| >= 1 && TypeName(sig.params[0]) == "Client"
  }

  /** `Server.On`. The func and shape checks come first; a reserved name then calls
      the map's entry for it with the handler, a setter accepting only its own func
      type; any other name stores the handler. */
  function ServerOn(reg: ServerRegistry, name: string, h: Handler): (r: Result<ServerRegistry, Panic>)
    ensures h.NonFunc? ==> r == Failure(NotAFunc)
    ensures h.Func? && !ClientFirst(h.sig) ==> r == Failure(BadHandlerShape)
    ensures r.Success? ==> h.Func? && ClientFirst(h.sig)
    ensures r.Success? && name in ServerReserved ==> r.value.events == reg.events
    ensures r.Success? && name !in ServerReserved ==> r.value == reg.(events := reg.events[name := Bound(h)])
    ensures h.Func? && ClientFirst(h.sig) && name !in ServerReserved ==> r.Success?
  {
    if h.NonFunc? then Failure(NotAFunc)
    else if !ClientFirst(h.sig) then Failure(BadHandlerShape)
    else if name in ServerReserved then
      if name !in reg.events then Failure(CallOfZeroValue)
      else match reg.events[name]
        case Setter(slot) =>
          if h.sig == SlotSignature(slot) then Success(Install(reg, slot, h))
          else Failure(ArgumentTypeMismatch)
        case Bound(_) => Success(reg)
    else Success(reg.(events := reg.events[name := Bound(h)]))
  }

  /** `Server.On` keeps the three setters in place. */
  lemma ServerOnKeepsSeeded(reg: ServerRegistry, name: string, h: Handler)
    requires Seeded(reg)
    ensures ServerOn(reg, name, h).Success? ==> Seeded(ServerOn(reg, name, h).value)
  {
    if ServerOn(reg, name, h).Success? && name !in ServerReserved {
      forall slot: Slot ensures SlotName(slot) != name {
        assert SlotName(slot) in ServerReserved;
      }
    }
  }

  /** On a seeded registry, registering under a reserved name installs exactly that
      slot's handler when the func type is the setter's, and panics otherwise. */
  lemma ServerOnReserved(reg: ServerRegistry, slot: Slot, h: Handler)
    requires Seeded(reg) && h.Func? && ClientFirst(h.sig)
    ensures ServerOn(reg, SlotName(slot), h).Success? <==> h.sig == SlotSignature(slot)
    ensures h.sig == SlotSignature(slot) ==> ServerOn(reg, SlotName(slot), h).value == Install(reg, slot, h)
    ensures h.sig != SlotSignature(slot) ==> ServerOn(reg, SlotName(slot), h).error == ArgumentTypeMismatch
  {
  }

  /** Every setter signature passes the shape check, so each slot can be filled. */
  lemma SlotSignaturesHaveShape(slot: Slot)
    ensures ClientFirst(SlotSignature(slot))
  {
  }
}

=== FILE: runtime.dfy ===
/**
 The parts of the Go runtime the bridge leans on, reduced to data: the shape of a
 function value as `reflect` reports it, and the panics the code can raise.
 */
module Runtime {

  /** A Go type as `reflect.Type.Name()` sees it: defined types have a package and a
      name; pointer, slice, map and func literal types are unnamed (Name() is ""). */
  datatype GoType = Named(pkg: string, name: string) | Unnamed

  /** The bridge's own session type `ws.Client`. */
  const ClientType: GoType := Named("ws", "Client")
  /** The predeclared types `string` and `error`. */
  const StringType: GoType := Named("", "string")
  const ErrorType: GoType := Named("", "error")

  /** `reflect.Type.Name()`. */
  function TypeName(t: GoType): string {
    match t
    case Named(_, n) => n
    case Unnamed => ""
  }

  /** Parameter and result types of a func type. */
  datatype Signature = Signature(params: seq<GoType>, results: seq<GoType>)

  /** A value handed to `On`: either not a func at all, or a func of some signature.
      The `id` tells apart two handlers of the same signature. */
  datatype Handler = NonFunc(id: nat) | Func(id: nat, sig: Signature)

  /** The panics the modelled code can raise. */
  datatype Panic =
    | NotAFunc               // "event handler must be a func."
    | BadHandlerShape        // "handler function should be like func(c Client, msg string)"
    | CallOfZeroValue        // reflect: call of a zero Value (missing map entry)
    | ArgumentTypeMismatch   // reflect: Call using a value of the wrong func type
    | AssignmentToNilMap     // assignment to entry in nil map
    | IndexOutOfRange        // index out of range [0] with length 0
    | NilFuncCall            // call of a nil func field
    | NilPointerDereference  // field access through a nil pointer
}

=== FILE: server.dfy ===
/**
 The server's session registry: admission of a new connection, the disconnect
 branch of the run loop, broadcasting, and what each session receives from the broker.
 */
module Server {
  import opened Wrappers
  import opened Runtime
  import Registry
  import Wire
  import Session

  /** What the server does that the outside world can see, in order. */
  datatype Effect =
    | Wrote(uid: string, frame: string)
      // The onConnect call; None is a handler never registered.
    | Connected(uid: string, handler: Option<Handler>)
      // The onDisconnect call with its reason; None as above.
    | Disconnected(uid: string, handler: Option<Handler>, reason: string)
      // A publish to the broker and the local sessions subscribed to its topic.
    | Published(topic: string, data: string, recipients: set<string>)

  datatype Server = Server(
    clients: map<string, Session.Session>,
    registry: Registry.ServerRegistry,
    log: seq<Effect>)

  /** The reason the run loop passes to onDisconnect. */
  const DisconnectReason: string := "disconnect"

  /** `NewServer`: no sessions, the seeded registry, nothing done yet. */
  function NewServer(): (s: Server)
    ensures s.clients == map[] && s.log == []
    ensures Registry.Seeded(s.registry)
  {
    Server(map[], Registry.NewServerRegistry(), [])
  }

  /** `Server.On`, lifted to the server state. */
  function On(s: Server, name: string, h: Handler): (r: Result<Server, Panic>)
    ensures r.Success? <==> Registry.ServerOn(s.registry, name, h).Success?
    ensures r.Success? ==> r.value.clients == s.clients && r.value.log == s.log
  {
    var reg := Registry.ServerOn(s.registry, name, h);
    if reg.Failure? then Failure(reg.error) else Success(s.(registry := reg.value))
  }

  /** The local sessions subscribed to a topic. */
  function Subscribers(s: Server, topic: string): (r: set<string>)
    ensures forall u :: u in r <==> u in s.clients && topic in s.clients[u].topics
  {
    set u | u in s.clients && topic in s.clients[u].topics
  }

  // ---------------------------------------------------------------------------
  // Admission and disconnect
  // ---------------------------------------------------------------------------

  /** The three effects of admitting `uid`. */
  function AdmissionEffects(s: Server, uid: string): seq<Effect> {
    [Wrote(uid, Wire.OpenFrame(uid)), Wrote(uid, Wire.ConnectFrame), Connected(uid, s.registry.onConnect)]
  }

  /** `NewClient` for the fresh id `uid`: store the new session, write the open frame
      and then "40", then call onConnect, whose error is dropped. A missing onConnect
      is skipped. */
  function Admit(s: Server, uid: string): (r: Server)
    ensures uid in r.clients && r.clients[uid] == Session.Open(uid)
    ensures r.clients[uid].uid == uid
    ensures forall t :: t in r.clients[uid].topics <==> t == uid || t == Wire.BroadcastTopic
    ensures forall u :: u != uid ==> (u in r.clients <==> u in s.clients)
    ensures forall u :: u != uid && u in s.clients ==> r.clients[u] == s.clients[u]
    ensures r.registry == s.registry
    ensures |r.log| == |s.log| + 3 && r.log[..|s.log|] == s.log
    ensures r.log[|s.log|] == Wrote(uid, Wire.OpenFrame(uid))
    ensures r.log[|s.log| + 1] == Wrote(uid, "40")
    ensures r.log[|s.log| + 2] == Connected(uid, s.registry.onConnect)
  {
    Server(s.clients[uid := Session.Open(uid)], s.registry, s.log + AdmissionEffects(s, uid))
  }

  /** `NewClient` as written: the default onConnect is a nil func, and calling it
      panics once the session is stored and both frames are written. */
  function AdmitAsWritten(s: Server, uid: string): (r: Result<Server, Panic>)
    ensures r.Failure? <==> s.registry.onConnect.None?
    ensures r.Failure? ==> r.error == NilFuncCall
    ensures r.Success? ==> r.value == Admit(s, uid)
  {
    if s.registry.onConnect.None? then Failure(NilFuncCall) else Success(Admit(s, uid))
  }

  /** The disconnect branch of `run`: for a stored session, call onDisconnect with the
      reason and remove the session; for any other id, do nothing. */
  function Disconnect(s: Server, uid: string): (r: Server)
    ensures uid !in r.clients
    ensures forall u :: u != uid ==> (u in r.clients <==> u in s.clients)
    ensures forall u :: u != uid && u in s.clients ==> r.clients[u] == s.clients[u]
    ensures r.registry == s.registry
    ensures uid !in s.clients ==> r == s
    ensures uid in s.clients ==> r.log == s.log + [Disconnected(uid, s.registry.onDisconnect, DisconnectReason)]
  {
    if uid in s.clients then
      Server(s.clients - {uid}, s.registry, s.log + [Disconnected(uid, s.registry.onDisconnect, DisconnectReason)])
    else s
  }

  /** The disconnect branch as written: the default onDisconnect is a nil func. */
  function DisconnectAsWritten(s: Server, uid: string): (r: Result<Server, Panic>)
    ensures r.Failure? <==> uid in s.clients && s.registry.onDisconnect.None?
    ensures r.Success? ==> r.value == Disconnect(s, uid)
  {
    if uid in s.clients && s.registry.onDisconnect.None? then Failure(NilFuncCall)
    else Success(Disconnect(s, uid))
  }

  /** Both pumps signal the same disconnect; the second signal changes nothing. */
  lemma DisconnectIdempotent(s: Server, uid: string)
    ensures Disconnect(Disconnect(s, uid), uid) == Disconnect(s, uid)
  {
  }

  /** Disconnecting right after admitting removes the session and leaves the other
      sessions as they were. */
  lemma AdmitThenDisconnect(s: Server, uid: string)
    requires uid !in s.clients
    ensures Disconnect(Admit(s, uid), uid).clients == s.clients
  {
    assert Disconnect(Admit(s, uid), uid).clients == s.clients[uid := Session.Open(uid)] - {uid};
  }

  /** On the server `NewServer` builds, the first admission panics as written, and so
      does every disconnect of a stored session until onDisconnect is registered. */
  lemma UnregisteredDefaultsPanic(uid: string)
    ensures AdmitAsWritten(NewServer(), uid) == Failure(NilFuncCall)
    ensures forall s: Server :: s.registry == NewServer().registry && uid in s.clients ==>
      DisconnectAsWritten(s, uid) == Failure(NilFuncCall)
  {
  }

  /** With the handlers registered, the code as written and the model coincide. */
  lemma RegisteredAgrees(s: Server, uid: string)
    requires s.registry.onConnect.Some? && s.registry.onDisconnect.Some?
    ensures AdmitAsWritten(s, uid) == Success(Admit(s, uid))
    ensures DisconnectAsWritten(s, uid) == Success(Disconnect(s, uid))
  {
  }

  // ---------------------------------------------------------------------------
  // Topics and publishing
  // ---------------------------------------------------------------------------

  /** `Join` or `Leave` on a stored session. */
  function Subscribe(s: Server, uid: string, room: string, join: bool): (r: Server)
    ensures r.registry == s.registry && r.log == s.log && r.clients.Keys == s.clients.Keys
    ensures uid in s.clients ==> (uid in Subscribers(r, room) <==> join)
    ensures forall u :: u != uid && u in s.clients ==> r.clients[u] == s.clients[u]
  {
    if uid !in s.clients then s
    else
      var c := s.clients[uid];
      s.(clients := s.clients[uid := if join then Session.Join(c, room) else Session.Leave(c, room)])
  }

  /** A publish reaches exactly the sessions subscribed to its topic. */
  function Publish(s: Server, p: Session.Publication): (r: Server)
    ensures r.clients == s.clients && r.registry == s.registry
    ensures r.log == s.log + [Published(p.topic, p.data, Subscribers(s, p.topic))]
  {
    s.(log := s.log + [Published(p.topic, p.data, Subscribers(s, p.topic))])
  }

  /** `Server.Broadcast`: the JSON object, to the first room given or else to the
      broadcast topic. */
  function Broadcast(s: Server, event: string, message: string, room: seq<string>): (r: Server)
    ensures r.clients == s.clients && r.registry == s.registry && |r.log| == |s.log| + 1
    ensures r.log[..|s.log|] == s.log && r.log[|s.log|].Published?
    ensures r.log[|s.log|].data == Wire.BroadcastFrame(event, message)
    ensures r.log[|s.log|].topic == (if |room| > 0 then room[0] else Wire.BroadcastTopic)
    ensures r.log[|s.log|].recipients == Subscribers(s, r.log[|s.log|].topic)
  {
    var topic := if |room| > 0 then room[0] else Wire.BroadcastTopic;
    Publish(s, Session.Publication(topic, Wire.BroadcastFrame(event, message)))
  }

  /** A default broadcast reaches every session still subscribed to the broadcast topic;
      in particular every session admitted and never taken off it. */
  lemma BroadcastReaches(s: Server, event: string, message: string, uid: string)
    requires uid in s.clients && Wire.BroadcastTopic in s.clients[uid].topics
    ensures uid in Broadcast(s, event, message, []).log[|s.log|].recipients
  {
  }

  /** A freshly admitted session hears both its own id and the broadcast topic. */
  lemma AdmittedListens(s: Server, uid: string)
    ensures uid in Subscribers(Admit(s, uid), uid)
    ensures uid in Subscribers(Admit(s, uid), Wire.BroadcastTopic)
  {
  }

  /** A room receives only what is published to it: a session that is not in a room
      gets none of that room's messages, whether emitted or broadcast. */
  lemma RoomIsolation(s: Server, c: Session.Session, uid: string, room: string, event: string, message: string)
    requires uid in s.clients && room !in s.clients[uid].topics
    ensures uid !in Publish(s, Session.To(c, room, event, message)).log[|s.log|].recipients
    ensures uid !in Broadcast(s, event, message, [room]).log[|s.log|].recipients
  {
  }

  /** What a broadcast publishes is never an event envelope, so no session's read
      loop would dispatch it as one if it were echoed back. */
  lemma BroadcastIsNotEnvelope(s: Server, event: string, message: string, room: seq<string>)
    ensures Broadcast(s, event, message, room).log[|s.log|].data != Wire.EventFrame(event, message)
  {
    Wire.BroadcastIsNotEnvelope(event, message, event, message);
  }

  // ---------------------------------------------------------------------------
  // Exactly one disconnect per admission
  // ---------------------------------------------------------------------------

  /** How often the log records an admission, and a disconnect, of `uid`. */
  function Connects(log: seq<Effect>, uid: string): nat
    decreases |log|
  {
    if log == [] then 0
    else Connects(log[..|log| - 1], uid) + (if log[|log| - 1].Connected? && log[|log| - 1].uid == uid then 1 else 0)
  }

  function Disconnects(log: seq<Effect>, uid: string): nat
    decreases |log|
  {
    if log == [] then 0
    else Disconnects(log[..|log| - 1], uid) + (if log[|log| - 1].Disconnected? && log[|log| - 1].uid == uid then 1 else 0)
  }

  /** Counting over a log extended by some effects. */
  lemma {:induction false} CountsAppend(log: seq<Effect>, more: seq<Effect>, uid: string)
    ensures Connects(log + more, uid) == Connects(log, uid) + Connects(more, uid)
    ensures Disconnects(log + more, uid) == Disconnects(log, uid) + Disconnects(more, uid)
    decreases |more|
  {
    if more == [] {
      assert log + more == log;
    } else {
      var init := more[..|more| - 1];
      assert (log + more)[..|log + more| - 1] == log + init;
      assert (log + more)[|log + more| - 1] == more[|more| - 1];
      CountsAppend(log, init, uid);
    }
  }

  /** Counting over a single effect. */
  lemma CountOne(e: Effect, uid: string)
    ensures Connects([e], uid) == if e.Connected? && e.uid == uid then 1 else 0
    ensures Disconnects([e], uid) == if e.Disconnected? && e.uid == uid then 1 else 0
  {
    assert [e][..0] == [];
  }

  /** Admission records one admission of its own id and no disconnect. */
  lemma AdmissionCounts(s: Server, uid: string, u: string)
    ensures Connects(AdmissionEffects(s, uid), u) == if u == uid then 1 else 0
    ensures Disconnects(AdmissionEffects(s, uid), u) == 0
  {
    var a := AdmissionEffects(s, uid);
    assert a == [a[0]] + [a[1]] + [a[2]];
    CountsAppend([a[0]] + [a[1]], [a[2]], u);
    CountsAppend([a[0]], [a[1]], u);
    CountOne(a[0], u);
    CountOne(a[1], u);
    CountOne(a[2], u);
  }

  /** Each id is admitted at most once, and its admission is balanced by its
      disconnect or its presence. */
  ghost predicate Balanced(s: Server) {
    forall u :: Disconnects(s.log, u) + (if u in s.clients then 1 else 0) == Connects(s.log, u) <= 1
  }

  /** The two things the server's loop takes from its channels: a new connection
      and a disconnect signal. */
  datatype Event = Connect(uid: string) | Drop(uid: string)

  function Step(s: Server, e: Event): Server {
    match e
    case Connect(uid) => Admit(s, uid)
    case Drop(uid) => Disconnect(s, uid)
  }

  /** Every id admitted is new: never admitted before. */
  ghost predicate FreshRun(s: Server, events: seq<Event>)
    decreases |events|
  {
    events == [] ||
    ((events[0].Connect? ==> Connects(s.log, events[0].uid) == 0) && FreshRun(Step(s, events[0]), events[1..]))
  }

  function Run(s: Server, events: seq<Event>): Server
    decreases |events|
  {
    if events == [] then s else Run(Step(s, events[0]), events[1..])
  }

  /** Admitting a new id and disconnecting any id keep the server balanced. */
  lemma StepBalanced(s: Server, e: Event)
    requires Balanced(s)
    requires e.Connect? ==> Connects(s.log, e.uid) == 0
    ensures Balanced(Step(s, e))
  {
    var r := Step(s, e);
    match e
    case Connect(uid) =>
      forall u ensures Disconnects(r.log, u) + (if u in r.clients then 1 else 0) == Connects(r.log, u) <= 1 {
        CountsAppend(s.log, AdmissionEffects(s, uid), u);
        AdmissionCounts(s, uid, u);
      }
    case Drop(uid) =>
      if uid in s.clients {
        var d := [Disconnected(uid, s.registry.onDisconnect, DisconnectReason)];
        forall u ensures Disconnects(r.log, u) + (if u in r.clients then 1 else 0) == Connects(r.log, u) <= 1 {
          CountsAppend(s.log, d, u);
          CountOne(d[0], u);
        }
      }
  }

  /** Over any run that admits only new ids, every admitted session has been
      disconnected exactly once when it is gone, and not at all while it is stored:
      the duplicate signal from the second pump never reaches onDisconnect. */
  lemma {:induction false} RunBalanced(s: Server, events: seq<Event>)
    requires Balanced(s) && FreshRun(s, events)
    ensures Balanced(Run(s, events))
    decreases |events|
  {
    if events != [] {
      StepBalanced(s, events[0]);
      RunBalanced(Step(s, events[0]), events[1..]);
    }
  }

  /** From a new server, over any run that admits only new ids: a session still
      stored has had no onDisconnect, and a session admitted and gone has had exactly
      one, however many disconnect signals its two pumps sent. */
  /** The handler a call record names is the one registered for its kind. */
  predicate NamesRegistered(e: Effect, reg: Registry.ServerRegistry) {
    && (e.Connected? ==> e.handler == reg.onConnect)
    && (e.Disconnected? ==> e.handler == reg.onDisconnect)
  }

  ghost predicate HandlersNamed(log: seq<Effect>, reg: Registry.ServerRegistry) {
    forall i :: 0 <= i < |log| ==> NamesRegistered(log[i], reg)
  }

  /** Admission and disconnect leave the registry alone and record calls of the
      registered onConnect and onDisconnect only. */
  lemma StepNamesHandlers(s: Server, e: Event)
    requires HandlersNamed(s.log, s.registry)
    ensures Step(s, e).registry == s.registry
    ensures HandlersNamed(Step(s, e).log, s.registry)
  {
    var r := Step(s, e);
    forall i | 0 <= i < |r.log| ensures NamesRegistered(r.log[i], s.registry) {
      if i >= |s.log| {
        match e
        case Connect(uid) => assert r.log[i] == AdmissionEffects(s, uid)[i - |s.log|];
        case Drop(uid) =>
      } else {
        assert r.log[i] == r.log[..|s.log|][i];
      }
    }
  }

  lemma {:induction false} RunNamesHandlers(s: Server, events: seq<Event>)
    requires HandlersNamed(s.log, s.registry)
    ensures Run(s, events).registry == s.registry
    ensures HandlersNamed(Run(s, events).log, s.registry)
    decreases |events|
  {
    if events != [] {
      StepNamesHandlers(s, events[0]);
      RunNamesHandlers(Step(s, events[0]), events[1..]);
    }
  }

  /** From a server with no sessions and an empty log, whatever handlers it has
      registered, with only new ids admitted: each id is admitted at most once; a stored
      session has had no disconnect call, and an admitted session that is gone has had
      exactly one; every disconnect call is of the registered onDisconnect. */
  lemma ExactlyOnce(s0: Server, events: seq<Event>, uid: string)
    requires s0.clients == map[] && s0.log == []
    requires FreshRun(s0, events)
    ensures var s := Run(s0, events);
      && Connects(s.log, uid) <= 1
      && (uid in s.clients ==> Connects(s.log, uid) == 1 && Disconnects(s.log, uid) == 0)
      && (uid !in s.clients ==> Disconnects(s.log, uid) == Connects(s.log, uid))
    ensures var s := Run(s0, events);
      forall i :: 0 <= i < |s.log| && s.log[i].Disconnected? ==> s.log[i].handler == s0.registry.onDisconnect
  {
    var s := Run(s0, events);
    assert Balanced(s0);
    RunBalanced(s0, events);
    assert Disconnects(s.log, uid) + (if uid in s.clients then 1 else 0) == Connects(s.log, uid) <= 1;
    RunNamesHandlers(s0, events);
    forall i | 0 <= i < |s.log| && s.log[i].Disconnected?
      ensures s.log[i].handler == s0.registry.onDisconnect
    {
      assert NamesRegistered(s.log[i], s0.registry);
    }
  }
}

=== FILE: session.dfy ===
/**
 One connected session as the client side sees it: the topics it is subscribed to,
 the frames it publishes, and how its read loop answers each inbound frame.
 */
module Session {
  import opened Wrappers
  import opened Runtime
  import Registry
  import Wire
  import Json
  import Decimal
  import Inbound

  // ---------------------------------------------------------------------------
  // Timing
  // ---------------------------------------------------------------------------

  /** Time allowed to wait for a pong, in milliseconds. The write deadline (10 s) and
      the read size limit (512 bytes) bound only socket calls and are not modelled. */
  const PongWaitMs: nat := 60000

  /** `pingPeriod = (pongWait * 9) / 10`; durations are positive, so Go's truncating
      division and Dafny's agree. */
  function PingPeriod(pongWait: nat): (r: nat)
    ensures 10 * r <= 9 * pongWait < 10 * r + 10
    ensures pongWait > 0 ==> r < pongWait
  {
    (pongWait * 9) / 10
  }

  const PingPeriodMs: nat := PingPeriod(PongWaitMs)

  /** The ping is sent before the pong deadline can pass, as the constants' comment demands. */
  lemma PingBeforePongDeadline()
    ensures PingPeriodMs == 54000
    ensures 0 < PingPeriodMs < PongWaitMs
  {
  }

  // ---------------------------------------------------------------------------
  // Topics and publishing
  // ---------------------------------------------------------------------------

  /** A session: its id, the broker topics it is subscribed to, and its handlers. */
  datatype Session = Session(uid: string, topics: set<string>, registry: Registry.ClientRegistry)

  /** One publish to the broker. */
  datatype Publication = Publication(topic: string, data: string)

  /** The session a new connection gets: subscribed to its own id and the broadcast topic. */
  function Open(uid: string): (c: Session)
    ensures c.uid == uid
    ensures forall t :: t in c.topics <==> t == uid || t == Wire.BroadcastTopic
    ensures c.registry == Registry.EmptyClientRegistry
  {
    Session(uid, {uid, Wire.BroadcastTopic}, Registry.EmptyClientRegistry)
  }

  /** `Client.Emit`: the event envelope, sent to the first room given, or else to the
      session's own id. Rooms after the first are ignored. */
  function Emit(c: Session, event: string, message: string, room: seq<string>): (r: Publication)
    ensures r.data == Wire.EventFrame(event, message)
    ensures r.topic == (if |room| > 0 then room[0] else c.uid)
  {
    Publication(if |room| > 0 then room[0] else c.uid, Wire.EventFrame(event, message))
  }

  /** `Client.To`: the envelope sent to the named room. */
  function To(c: Session, room: string, event: string, message: string): (r: Publication)
    ensures r.topic == room
    ensures r.data == Wire.EventFrame(event, message)
  {
    Emit(c, event, message, [room])
  }

  /** `To` is `Emit` with a one-room list, and a longer list behaves as its head alone. */
  lemma ToIsEmit(c: Session, room: string, rest: seq<string>, event: string, message: string)
    ensures To(c, room, event, message) == Emit(c, event, message, [room] + rest)
  {
  }

  /** The topic of any `Emit` is the session's own id or a room it was given. */
  lemma EmitTopic(c: Session, event: string, message: string, room: seq<string>)
    ensures Emit(c, event, message, room).topic == c.uid || Emit(c, event, message, room).topic in room
  {
  }

  /** `Client.Join`: subscribe to one more topic. */
  function Join(c: Session, room: string): (r: Session)
    ensures r.uid == c.uid && r.registry == c.registry
    ensures room in r.topics
    ensures forall t :: t != room ==> (t in r.topics <==> t in c.topics)
  {
    c.(topics := c.topics + {room})
  }

  /** `Client.Leave`: unsubscribe from one topic. */
  function Leave(c: Session, room: string): (r: Session)
    ensures r.uid == c.uid && r.registry == c.registry
    ensures room !in r.topics
    ensures forall t :: t != room ==> (t in r.topics <==> t in c.topics)
  {
    c.(topics := c.topics - {room})
  }

  /** Joining twice is joining once, leaving twice is leaving once. */
  lemma JoinLeaveIdempotent(c: Session, room: string)
    ensures Join(Join(c, room), room) == Join(c, room)
    ensures Leave(Leave(c, room), room) == Leave(c, room)
  {
  }

  /** Leaving a room the session had not been in undoes joining it, and joining a room
      it was already in changes nothing. */
  lemma LeaveUndoesJoin(c: Session, room: string)
    ensures room !in c.topics ==> Leave(Join(c, room), room) == c
    ensures room in c.topics ==> Join(c, room) == c
  {
  }

  // ---------------------------------------------------------------------------
  // Reacting to inbound frames
  // ---------------------------------------------------------------------------

  /** What the read loop does with one frame: nothing, write a reply, or start the
      handler registered for the decoded event with the decoded payload. A read error
      ends the loop and reports to the error handler. */
  datatype Action =
    | Ignore
    | Reply(frame: string)
    | Invoke(handler: Handler, payload: string)
    | Report(handler: Handler)

  /** The loop body for one frame, with the registry as it stands. */
  function React(reg: Registry.ClientRegistry, frame: string): (r: Action)
    ensures !r.Report?
    ensures r.Reply? <==> Decimal.IsTwo(frame)
    ensures r.Reply? ==> r.frame == Wire.PongFrame
    ensures Decimal.Atoi(frame).Some? ==> !r.Invoke?
    ensures r.Invoke? <==> Inbound.DecodeJson(frame).Message? && Inbound.DecodeJson(frame).event in reg.events
    ensures r.Invoke? ==> r.handler == reg.events[Inbound.DecodeJson(frame).event]
    ensures r.Invoke? ==> r.payload == Inbound.DecodeJson(frame).payload
  {
    Inbound.StatusFrames(frame);
    match Inbound.DecodeJson(frame)
    case Status(n) => if n == 2 then Reply(Wire.PongFrame) else Ignore
    case Message(event, payload) => if event in reg.events then Invoke(reg.events[event], payload) else Ignore
    case Unmatched => Ignore
  }

  /** The loop body as written: over the session's event map, nil in every session the
      server admits, and with the decoder that can panic. Reading a nil map finds
      nothing. */
  function ReactAsWritten(events: Option<map<string, Handler>>, frame: string): (r: Result<Action, Panic>)
    ensures r.Failure? <==> Inbound.DecodeAsWritten(frame).Failure?
    ensures events.None? && r.Success? ==> !r.value.Invoke?
  {
    match Inbound.DecodeAsWritten(frame)
    case Failure(p) => Failure(p)
    case Success(Status(n)) => Success(if n == 2 then Reply(Wire.PongFrame) else Ignore)
    case Success(Message(event, payload)) =>
      if events.Some? && event in events.value then Success(Invoke(events.value[event], payload))
      else Success(Ignore)
    case Success(Unmatched) => Success(Ignore)
  }

  /** Once its map exists, the code as written reacts as the model does to every frame
      it does not crash on and whose reported group 1 is a JSON string body. */
  lemma ReactAgrees(reg: Registry.ClientRegistry, frame: string)
    ensures ReactAsWritten(Some(reg.events), frame).Success? && Inbound.GreedyIsJson(frame) ==>
      ReactAsWritten(Some(reg.events), frame).value == React(reg, frame)
  {
    Inbound.DecodeAgrees(frame);
    Inbound.DecodeJsonAgrees(frame);
  }

  /** A frame emitted by any session reaches a receiving session's handler for the
      JSON-escaped event name, carrying the JSON-escaped payload; when no handler
      is registered under that name, it is dropped. */
  lemma EmitReact(c: Session, reg: Registry.ClientRegistry, event: string, message: string, room: seq<string>)
    ensures var r := React(reg, Emit(c, event, message, room).data);
      r == if Json.Escape(event) in reg.events
           then Invoke(reg.events[Json.Escape(event)], Json.Escape(message))
           else Ignore
  {
    Inbound.EnvelopeRoundTripJson(event, message);
  }

  /** For names and payloads `json.Marshal` copies as they are, the handler registered
      under the name receives exactly the payload. */
  lemma EmitReactLiteral(c: Session, reg: Registry.ClientRegistry, event: string, message: string, room: seq<string>)
    requires Json.IsLiteralString(event) && Json.IsLiteralString(message)
    requires event in reg.events
    ensures React(reg, Emit(c, event, message, room).data) == Invoke(reg.events[event], message)
  {
    Inbound.EnvelopeRoundTripLiteral(event, message);
  }

  // ---------------------------------------------------------------------------
  // The read loop
  // ---------------------------------------------------------------------------

  /** One outcome of `ReadMessage`: a frame, or an error that ends the loop. */
  datatype Read = Received(frame: string) | Broken

  /** Index of the first read error, or the length of the input when there is none. */
  function FirstBroken(input: seq<Read>): (n: nat)
    ensures n <= |input|
    ensures forall k :: 0 <= k < n ==> input[k].Received?
    ensures n < |input| ==> input[n] == Broken
    decreases |input|
  {
    if input == [] || input[0] == Broken then 0 else 1 + FirstBroken(input[1..])
  }

  /** The read loop for a given reaction to each frame: one action per frame, in
      order, up to the first read error, which reports to `onError` when it is set. */
  function Drain(react: string -> Action, onError: Option<Handler>, input: seq<Read>): seq<Action>
    decreases |input|
  {
    if input == [] then []
    else match input[0]
      case Broken => if onError.Some? then [Report(onError.value)] else []
      case Received(frame) => [react(frame)] + Drain(react, onError, input[1..])
  }

  /** The k-th action answers the k-th frame up to the first read error; then comes
      one report when a handler is set, and nothing else. */
  lemma {:induction false} DrainIndex(react: string -> Action, onError: Option<Handler>, input: seq<Read>)
    ensures var r := Drain(react, onError, input);
      && |r| == FirstBroken(input) + (if FirstBroken(input) < |input| && onError.Some? then 1 else 0)
      && (forall k :: 0 <= k < FirstBroken(input) ==> r[k] == react(input[k].frame))
      && (FirstBroken(input) < |input| && onError.Some? ==> r[FirstBroken(input)] == Report(onError.value))
    decreases |input|
  {
    if input != [] && input[0].Received? {
      DrainIndex(react, onError, input[1..]);
      assert forall k :: 1 <= k < |input| ==> input[1..][k - 1] == input[k];
    }
  }

  /** The reaction `readPump` has to each frame, over the registry as it stands. */
  function Reaction(reg: Registry.ClientRegistry): string -> Action {
    frame => React(reg, frame)
  }

  /** Reference definition of `readPump`: one action per frame, in order, up to the
      first read error, which reports to the error handler when there is one. */
  function Pump(reg: Registry.ClientRegistry, input: seq<Read>): (r: seq<Action>)
    ensures |r| == FirstBroken(input) + (if FirstBroken(input) < |input| && reg.onError.Some? then 1 else 0)
    ensures forall k :: 0 <= k < FirstBroken(input) ==> r[k] == React(reg, input[k].frame)
    ensures FirstBroken(input) < |input| && reg.onError.Some? ==> r[FirstBroken(input)] == Report(reg.onError.value)
  {
    DrainIndex(Reaction(reg), reg.onError, input);
    Drain(Reaction(reg), reg.onError, input)
  }

  /** A frame read before any error is answered first, then the rest of the input. */
  lemma DrainStep(react: string -> Action, onError: Option<Handler>, input: seq<Read>)
    requires input != [] && input[0].Received?
    ensures Drain(react, onError, input) == [react(input[0].frame)] + Drain(react, onError, input[1..])
  {
  }

  lemma {:induction false} DrainSplits(react: string -> Action, onError: Option<Handler>, before: seq<Read>, after: seq<Read>)
    requires Broken !in before
    ensures Drain(react, onError, before + after) == Drain(react, onError, before) + Drain(react, onError, after)
    ensures |Drain(react, onError, before)| == |before|
    decreases |before|
  {
    if before != [] {
      var f := before[0].frame;
      var rest := before[1..];
      ConsSplit(before, after);
      assert Broken !in rest;
      DrainSplits(react, onError, rest, after);
      DrainSplitStep(react, onError, f, rest, after);
    } else {
      assert before + after == after;
    }
  }

  /** Splitting is preserved when a received frame is put in front. */
  lemma DrainSplitStep(react: string -> Action, onError: Option<Handler>, f: string, rest: seq<Read>, after: seq<Read>)
    requires Drain(react, onError, rest + after) == Drain(react, onError, rest) + Drain(react, onError, after)
    ensures Drain(react, onError, [Received(f)] + (rest + after))
         == Drain(react, onError, [Received(f)] + rest) + Drain(react, onError, after)
    ensures |Drain(react, onError, [Received(f)] + rest)| == 1 + |Drain(react, onError, rest)|
  {
    DrainCons(react, onError, f, rest);
    DrainCons(react, onError, f, rest + after);
    var head := [react(f)];
    assert head + (Drain(react, onError, rest) + Drain(react, onError, after))
        == (head + Drain(react, onError, rest)) + Drain(react, onError, after);
  }

  lemma ConsSplit(before: seq<Read>, after: seq<Read>)
    requires before != [] && before[0].Received?
    ensures before == [Received(before[0].frame)] + before[1..]
    ensures before + after == [Received(before[0].frame)] + (before[1..] + after)
  {
  }

  lemma DrainCons(react: string -> Action, onError: Option<Handler>, f: string, rest: seq<Read>)
    ensures Drain(react, onError, [Received(f)] + rest) == [react(f)] + Drain(react, onError, rest)
  {
    assert ([Received(f)] + rest)[1..] == rest;
  }

  /** Frames before the first read error are handled one by one, in order; nothing
      after it is read. */
  lemma PumpSplits(reg: Registry.ClientRegistry, before: seq<Read>, after: seq<Read>)
    requires Broken !in before
    ensures Pump(reg, before + after) == Pump(reg, before) + Pump(reg, after)
    ensures |Pump(reg, before)| == |before|
  {
    DrainSplits(Reaction(reg), reg.onError, before, after);
  }

  /** The loop of `readPump` for a given reaction: it reads until the first error. */
  method ReadLoop(react: string -> Action, onError: Option<Handler>, input: seq<Read>) returns (trace: seq<Action>)
    ensures |trace| == FirstBroken(input) + (if FirstBroken(input) < |input| && onError.Some? then 1 else 0)
    ensures forall k :: 0 <= k < FirstBroken(input) ==> trace[k] == react(input[k].frame)
    ensures FirstBroken(input) < |input| && onError.Some? ==> trace[FirstBroken(input)] == Report(onError.value)
    ensures trace == Drain(react, onError, input)
  {
    trace := [];
    var i := 0;
    while i < |input|
      invariant 0 <= i <= FirstBroken(input)
      invariant |trace| == i
      invariant forall k :: 0 <= k < i ==> trace[k] == react(input[k].frame)
    {
      if input[i] == Broken {
        break;
      }
      trace := trace + [react(input[i].frame)];
      i := i + 1;
    }
    if i < |input| && onError.Some? {
      trace := trace + [Report(onError.value)];
    }
    DrainDetermined(react, onError, input, trace);
  }

  /** The read loop, frame by frame: the k-th action answers the k-th frame until the
      first read error, which ends the loop after reporting to the error handler. */
  method ReadPump(reg: Registry.ClientRegistry, input: seq<Read>) returns (trace: seq<Action>)
    ensures |trace| == FirstBroken(input) + (if FirstBroken(input) < |input| && reg.onError.Some? then 1 else 0)
    ensures forall k :: 0 <= k < FirstBroken(input) ==> trace[k] == React(reg, input[k].frame)
    ensures FirstBroken(input) < |input| && reg.onError.Some? ==> trace[FirstBroken(input)] == Report(reg.onError.value)
    ensures trace == Pump(reg, input)
  {
    trace := ReadLoop(Reaction(reg), reg.onError, input);
  }

  /** A trace with the reference trace's length and actions is the reference trace. */
  lemma DrainDetermined(react: string -> Action, onError: Option<Handler>, input: seq<Read>, t: seq<Action>)
    requires |t| == FirstBroken(input) + (if FirstBroken(input) < |input| && onError.Some? then 1 else 0)
    requires forall k :: 0 <= k < FirstBroken(input) ==> t[k] == react(input[k].frame)
    requires FirstBroken(input) < |input| && onError.Some? ==> t[FirstBroken(input)] == Report(onError.value)
    ensures t == Drain(react, onError, input)
  {
    DrainIndex(react, onError, input);
    var r := Drain(react, onError, input);
    var n := FirstBroken(input);
    forall k | 0 <= k < |t| ensures t[k] == r[k] {
      if k < n {
        assert t[k] == react(input[k].frame) == r[k];
      }
    }
  }

  /** `readPump` as written, on a session as the server admits it: the handler
      pointer is nil, so the first read error dereferences it. */
  function PumpAsWritten(events: Option<map<string, Handler>>, input: seq<Read>): (r: Result<seq<Action>, Panic>)
    ensures r.Success? ==> Broken !in input
    decreases |input|
  {
    if input == [] then Success([])
    else match input[0]
      case Broken => Failure(NilPointerDereference)
      case Received(frame) =>
        var a := ReactAsWritten(events, frame);
        if a.Failure? then Failure(a.error)
        else
          var rest := PumpAsWritten(events, input[1..]);
          if rest.Failure? then rest else Success([a.value] + rest.value)
  }

  /** On the nil map the loop as written never starts a handler: every frame it gets
      through is answered by a pong or ignored. */
  lemma {:induction false} NilMapNeverInvokes(input: seq<Read>)
    ensures var r := PumpAsWritten(None, input);
      r.Success? ==> forall k :: 0 <= k < |r.value| ==> !r.value[k].Invoke?
    decreases |input|
  {
    if input != [] && input[0].Received? {
      var a := ReactAsWritten(None, input[0].frame);
      var rest := PumpAsWritten(None, input[1..]);
      NilMapNeverInvokes(input[1..]);
      if a.Success? && rest.Success? {
        var out := [a.value] + rest.value;
        assert PumpAsWritten(None, input) == Success(out);
        forall k | 0 <= k < |out| ensures !out[k].Invoke? {
          if k > 0 {
            assert out[k] == rest.value[k - 1];
          }
        }
      }
    }
  }

  /** Every connection ends in a read error, so as written every session's read loop
      ends in a panic; the corrected loop reports it and ends. */
  lemma ReadErrorPanics(events: Option<map<string, Handler>>, before: seq<Read>, after: seq<Read>)
    ensures PumpAsWritten(events, before + [Broken] + after).Failure?
  {
    var input := before + [Broken] + after;
    assert input[|before|] == Broken;
  }

  /** Before any read error, on frames the decoder as written does not crash on and
      whose reported group 1 is a JSON string body, the loop as written (once its map
      exists) and the corrected loop agree. */
  lemma {:induction false} PumpAgrees(reg: Registry.ClientRegistry, input: seq<Read>)
    requires Broken !in input
    requires forall k :: 0 <= k < |input| ==> Inbound.DecodeAsWritten(input[k].frame).Success?
    requires forall k :: 0 <= k < |input| ==> Inbound.GreedyIsJson(input[k].frame)
    ensures PumpAsWritten(Some(reg.events), input) == Success(Pump(reg, input))
    decreases |input|
  {
    if input != [] {
      assert input[0].Received?;
      assert Inbound.DecodeAsWritten(input[0].frame).Success? && Inbound.GreedyIsJson(input[0].frame);
      ReactAgrees(reg, input[0].frame);
      assert forall k :: 0 <= k < |input[1..]| ==> input[1..][k] == input[k + 1];
      PumpAgrees(reg, input[1..]);
      PumpStep(reg, input);
    }
  }

  /** A frame read before any error is answered first, then the rest of the input. */
  lemma PumpStep(reg: Registry.ClientRegistry, input: seq<Read>)
    requires input != [] && input[0].Received?
    ensures Pump(reg, input) == [React(reg, input[0].frame)] + Pump(reg, input[1..])
  {
    DrainStep(Reaction(reg), reg.onError, input);
    assert Reaction(reg)(input[0].frame) == React(reg, input[0].frame);
  }
}

=== FILE: wire.dfy ===
/**
 The frames the bridge writes: the Socket.IO handshake, the heartbeat reply, the
 event envelope `Emit` publishes and the JSON object `Broadcast` publishes.
 */
module Wire {
  import opened Wrappers
  import Json
  import Decimal

  /** Engine.IO "message" (4) carrying a Socket.IO "event" (2): bytes 52, 50. */
  const EventMarker: string := "42"
  /** Engine.IO "message" carrying Socket.IO "connect". */
  const ConnectFrame: string := "40"
  /** Engine.IO "pong", the answer to the probe "2". */
  const PongFrame: string := "3"
  /** The topic every session subscribes to at admission and `Broadcast` targets by default. */
  const BroadcastTopic: string := "ServerBroadcast"

  /** The ping interval and ping timeout the open packet announces, in milliseconds. */
  const PingIntervalMs: nat := 30000
  const PingTimeoutMs: nat := 60000

  /** What the open packet holds after the session id: no upgrades, then the two
      timings as decimal text. */
  function OpenTail(interval: nat, timeout: nat): string {
    "\",\"upgrades\":[],\"pingInterval\":" + Decimal.Text(interval) + ",\"pingTimeout\":" + Decimal.Text(timeout) + "}"
  }

  /** Engine.IO "open" packet announcing the session id and the ping timings. The id
      is spliced in as it is, without JSON escaping. */
  function OpenFrame(uid: string): (r: string)
    ensures |r| > 9 + |uid| && r[0] == '0'
    ensures r[..9] == "0{\"sid\":\"" && r[9..9 + |uid|] == uid
    ensures r[9 + |uid|..] == "\",\"upgrades\":[],\"pingInterval\":30000,\"pingTimeout\":60000}"
  {
    var head := "0{\"sid\":\"";
    var tail := "\",\"upgrades\":[],\"pingInterval\":30000,\"pingTimeout\":60000}";
    assert (head + uid + tail)[9 + |uid|..] == tail;
    head + uid + tail
  }

  lemma IntervalText()
    ensures Decimal.Text(PingIntervalMs) == "30000"
  {
    Decimal.TextDigit(3, 0);
    Decimal.TextDigit(30, 0);
    Decimal.TextDigit(300, 0);
    Decimal.TextDigit(3000, 0);
  }

  lemma TimeoutText()
    ensures Decimal.Text(PingTimeoutMs) == "60000"
  {
    Decimal.TextDigit(6, 0);
    Decimal.TextDigit(60, 0);
    Decimal.TextDigit(600, 0);
    Decimal.TextDigit(6000, 0);
  }

  lemma OpenTailText()
    ensures OpenTail(PingIntervalMs, PingTimeoutMs) == "\",\"upgrades\":[],\"pingInterval\":30000,\"pingTimeout\":60000}"
  {
    IntervalText();
    TimeoutText();
  }

  /** After the session id, the open packet announces no upgrades and the two timings
      as decimal text, which `strconv.Atoi` reads back as the announced constants; the
      interval is shorter than the timeout. */
  lemma OpenFrameTimings(uid: string)
    ensures OpenFrame(uid)[9 + |uid|..] == OpenTail(PingIntervalMs, PingTimeoutMs)
    ensures Decimal.Atoi(Decimal.Text(PingIntervalMs)) == Some(PingIntervalMs)
    ensures Decimal.Atoi(Decimal.Text(PingTimeoutMs)) == Some(PingTimeoutMs)
    ensures PingIntervalMs < PingTimeoutMs
  {
    OpenTailText();
    Decimal.AtoiText(PingIntervalMs);
    Decimal.AtoiText(PingTimeoutMs);
  }

  /** The envelope `Client.Emit` publishes: the marker followed by `json.Marshal([]string{event, message})`. */
  function EventFrame(event: string, message: string): (r: string)
    ensures |r| >= 2 && r[0] as int == 52 && r[1] as int == 50
    ensures '\n' !in r
  {
    EventMarker + Json.Array2(event, message)
  }

  /** The object `Server.Broadcast` publishes: `json.Marshal(map[string]string{"event": event, "payload": message})`.
      Go writes map keys in sorted order, and neither key needs escaping. */
  function BroadcastFrame(event: string, message: string): (r: string)
    ensures |r| > 2 && r[0] == '{' && r[|r| - 1] == '}'
  {
    "{\"event\":" + Json.Quote(event) + ",\"payload\":" + Json.Quote(message) + "}"
  }

  /** For characters `json.Marshal` copies as they are, the envelope is exactly `42["event","message"]`. */
  lemma EventFrameLiteral(event: string, message: string)
    requires Json.IsLiteralString(event) && Json.IsLiteralString(message)
    ensures EventFrame(event, message) == "42[\"" + event + "\",\"" + message + "\"]"
  {
  }

  /** For characters `json.Marshal` copies as they are, the broadcast is exactly
      `{"event":"event","payload":"message"}`. */
  lemma BroadcastFrameLiteral(event: string, message: string)
    requires Json.IsLiteralString(event) && Json.IsLiteralString(message)
    ensures BroadcastFrame(event, message) == "{\"event\":\"" + event + "\",\"payload\":\"" + message + "\"}"
  {
    var q := "\"";
    assert Json.Quote(event) == q + event + q;
    assert Json.Quote(message) == q + message + q;
    MoveQuotes("{\"event\":", q, event, ",\"payload\":", message, "}");
    assert "{\"event\":" + q == "{\"event\":\"";
    assert q + ",\"payload\":" + q == "\",\"payload\":\"";
    assert q + "}" == "\"}";
  }

  /** Moving the quotes of both strings into the surrounding text. */
  lemma MoveQuotes(a: string, q: string, x: string, b: string, y: string, c: string)
    ensures a + (q + x + q) + b + (q + y + q) + c == (a + q) + x + (q + b + q) + y + (q + c)
  {
  }

  /** A broadcast object is never an event envelope, whatever the two carry. */
  lemma BroadcastIsNotEnvelope(event: string, message: string, event2: string, message2: string)
    ensures BroadcastFrame(event, message) != EventFrame(event2, message2)
  {
    assert BroadcastFrame(event, message)[0] != EventFrame(event2, message2)[0];
  }
}

=== FILE: wrappers.dfy ===
/** Failure-carrying datatypes shared by the rest of the model. */
module Wrappers {

  /** A value that may be absent: a failed parse, a missing map entry. */
  datatype Option<+T> = None | Some(value: T)

  /** The outcome of an operation that can fail; in this model the failure is a Go panic. */
  datatype Result<+T, +E> = Success(value: T) | Failure(error: E)
}
